=== FILE: README.md ===
# Axis layout heuristics of Brunel, in Dafny

Brunel's D3 builder describes every chart axis with an `AxisDetails`
descriptor. Building one resolves the axis title, decides whether values are
shown in millions, and records any tick count the user asked for. One of two
layout procedures then turns the pixel space available along the axis into
geometry:

- the perpendicular `size`;
- the four gutters;
- whether tick labels are rotated by 45 degrees;
- which category ticks are shown;
- possibly a reduced tick count.

This project models that class as immutable data and pure functions, and proves
what the layout promises.

- `java_numerics.dfy` (module `JavaNumerics`) covers the Java conversions the
  layout relies on:
  - `(int)` of a double truncates toward zero and saturates;
  - a double divided by a zero int gives an infinity or NaN;
  - `Math.round` rounds to a long, and `(int)` of a long keeps its low 32 bits;
  - int `/ 2` truncates;
  - `(int) (w / Math.sqrt(2))` is computed exactly: for w ≥ 0 it is the
    unique h ≥ 0 with 2h² ≤ w² < 2(h+1)², and for w < 0 it is the negation of
    that value for −w, i.e. w/√2 rounded toward zero.
- `sequences.dfy` (module `Sequences`) holds two things:
  - insertion-ordered de-duplication, i.e. what a `LinkedHashSet` holds after
    its elements are added in order;
  - "every k-th element", given both as a stride definition and as the
    counting loop's accumulation, with a proof that the two agree.
- `fields.dfy` (module `Fields`) defines:
  - the fields an axis shows, reduced to what the layout reads;
  - category values (`Scalar | Range`);
  - the services of the rest of the library (value formatting, numeric
    sample ticks, title joining) as an `Externals` record of functions.
- `axis.dfy` (module `Axis`) holds the descriptor, its constructor, title
  resolution, the classifiers, tick counting, label-width estimates and tick
  skipping.
- `layout.dfy` (module `Layout`) holds the horizontal and vertical layouts as
  descriptor-to-descriptor functions.
- `properties.dfy` (module `AxisProperties`) holds lemmas that relate several
  operations, plus three worked examples:
  - 50 categories in 200 pixels are rotated, and every fifth one is shown;
  - a tiny negative width makes the skip frequency wrap around the int range;
  - a field spanning 0 to 3,500,000 puts the axis in millions.

The available space is a `real`. Every place where the code narrows a double
to an int is written out. The layouts have no preconditions.

`countTicks` (`AxisDetails.java` line 178) floors the tick count at 1 to
avoid a division by zero, but only when there are no fields at all. When
fields exist but have no categories, the count is 0. The code then divides a
double by zero: an infinity or NaN follows, and the `(int)` cast turns it into
INT_MAX, INT_MIN or 0. The model follows those values instead of excluding the
case.

## Model

| member | source | states |
|---|---|---|
| Axis.NewAxis | core/src/main/java/org/brunel/build/d3/AxisDetails.java:49-62 | A non-empty user title is used verbatim. An empty one means no title. An absent one falls back to the computed title. A requested tick count is kept iff it is below 100. `inMillions` holds iff the axis is numeric and some non-date field with an extent spans more than 2,000,000. The geometry starts out unset. |
| Axis.AnySpansMillions | core/src/main/java/org/brunel/build/d3/AxisDetails.java:64-69 | The scan over the fields answers true exactly when some field is not a date, has an extent, and has max − min > 2,000,000. |
| Axis.RealFields | core/src/main/java/org/brunel/build/d3/AxisDetails.java:75-76 | A field is kept iff it is neither synthetic nor named with a leading quote. Order and repeats are stated by Axis.RealFieldsAppend. |
| Axis.RealFieldsAppend | core/src/main/java/org/brunel/build/d3/AxisDetails.java:75-76 | The filter keeps field order and repeats: the real fields of a concatenation are those of each part, concatenated. |
| Axis.RealFieldsSingle | core/src/main/java/org/brunel/build/d3/AxisDetails.java:75-76 | A single field is kept iff it is real; with Axis.RealFieldsAppend this determines the real fields of any list. |
| Axis.TitleSet | core/src/main/java/org/brunel/build/d3/AxisDetails.java:78-85 | The titles are distinct and are empty iff no real field remains. They are either the de-duplicated display labels or the de-duplicated original labels, whichever is smaller. On a tie they are the display labels. Every title is a label of some real field. |
| Axis.ComputedTitle | core/src/main/java/org/brunel/build/d3/AxisDetails.java:72-87 | The title is absent exactly when every field is synthetic or quoted. Otherwise it is the join of the title set. |
| Sequences.Dedup | core/src/main/java/org/brunel/build/d3/AxisDetails.java:78-84 | The insertion-ordered set has the same members as the input. It has no repeats, lists them in order of first occurrence, and is no longer than the input. |
| Sequences.DedupOfDistinct | core/src/main/java/org/brunel/build/d3/AxisDetails.java:78-84 | Adding already-distinct labels to the ordered set keeps them all, in order. |
| AxisProperties.TitleSetWithoutOriginalLabels | core/src/main/java/org/brunel/build/d3/AxisDetails.java:79-85 | When no field carries an original label, the title set is the de-duplicated display labels of the real fields. |
| AxisProperties.TitleOfDistinctLabels | core/src/main/java/org/brunel/build/d3/AxisDetails.java:72-87 | With distinct display labels and no original labels, the title joins the real fields' labels in field order. |
| Axis.IsLog | core/src/main/java/org/brunel/build/d3/AxisDetails.java:93-95 | The axis is logarithmic iff it has a field and its first field has transform "log". |
| Axis.CountTicks | core/src/main/java/org/brunel/build/d3/AxisDetails.java:176-183 | The count is 10 on a numeric axis and 1 on a categorical axis without fields. Otherwise it is the number of categories over all fields. |
| Axis.Exists | core/src/main/java/org/brunel/build/d3/AxisDetails.java:148-150 | An axis exists iff it has at least one field. |
| Fields.Flatten | core/src/main/java/org/brunel/build/d3/AxisDetails.java:179-181 | The flattened category list is as long as the category counts summed over the fields. |
| Fields.FlattenMembers | core/src/main/java/org/brunel/build/d3/AxisDetails.java:193-194 | A value is in the flattened list iff some field has it as a category. |
| Fields.FlattenStartsWithFirstField | core/src/main/java/org/brunel/build/d3/AxisDetails.java:193-194 | The first category of the first field comes first. |
| Axis.CharsToPixels | core/src/main/java/org/brunel/build/d3/AxisDetails.java:173 | `(int) (chars * 6.5)` equals (13·chars)/2 in integers whenever that fits in an int, and always lies within the int range. |
| Axis.MaxChars | core/src/main/java/org/brunel/build/d3/AxisDetails.java:155-172 | The character count is at least its start value and at least every measured label length. A range adds one for the ellipsis, and a numeric field raises the count to at least 3. |
| Axis.MaxCharsAttained | core/src/main/java/org/brunel/build/d3/AxisDetails.java:155-172 | The character count is attained by the start value, by the numeric minimum 3, or by some label. |
| Axis.MaxCategoryWidth | core/src/main/java/org/brunel/build/d3/AxisDetails.java:153-174 | The width is 0 without fields. Otherwise it is at least the width of one character (three on a numeric axis). It is at least the width of every measured label and equals one of these widths. |
| Axis.MaxTickWidth | core/src/main/java/org/brunel/build/d3/AxisDetails.java:235-243 | The width is at least one character's width and at least every chosen tick's width, where ranges count their ellipsis. It equals one of these. |
| Axis.TitleHeight | core/src/main/java/org/brunel/build/d3/AxisDetails.java:201-203 | The title height is 16 with a title and 0 without. |
| Axis.SimpleSizeWhenHorizontal | core/src/main/java/org/brunel/build/d3/AxisDetails.java:205-207 | The size is 0 without fields. Otherwise it is exactly 20 plus the title height, so 36 with a title and 20 without. |
| Axis.SkipFrequency | core/src/main/java/org/brunel/build/d3/AxisDetails.java:188-189 | The frequency rounds 20 · count / width to the nearest integer when that is in range. A zero count or zero width never asks for skipping. A negative width gives a frequency of at most 0 as long as 20 · count / width ≥ INT_MIN − ½. Below that, the rounded long keeps only its low 32 bits, as in Java; AxisProperties.TinyNegativeWidthWraps shows one such case. |
| Axis.MakeSkippingTickValues | core/src/main/java/org/brunel/build/d3/AxisDetails.java:186-198 | Tick values are chosen iff the axis is categorical and the skip frequency k is at least 2. Their number m satisfies (m−1)·k < n ≤ m·k for n categories. |
| Axis.CollectSkipping | core/src/main/java/org/brunel/build/d3/AxisDetails.java:191-197 | The loop with one running position over all fields' categories keeps exactly every k-th element of the flattened list. |
| Sequences.EveryNthBounds | core/src/main/java/org/brunel/build/d3/AxisDetails.java:192-195 | Keeping every k-th of n elements keeps m elements with (m−1)·k < n ≤ m·k. |
| Sequences.EveryNthAt | core/src/main/java/org/brunel/build/d3/AxisDetails.java:192-195 | The i-th kept element is the one at position i·k. |
| Sequences.KeepAtMultiplesBounds | core/src/main/java/org/brunel/build/d3/AxisDetails.java:192-195 | The loop that keeps positions divisible by k keeps m elements with (m−1)·k < n ≤ m·k. |
| Sequences.EveryNthElements | core/src/main/java/org/brunel/build/d3/AxisDetails.java:192-195 | The same fact as EveryNthAt, stated for all positions at once: every kept element i is the one at position i·k. |
| Sequences.KeepAtMultiplesIsEveryNth | core/src/main/java/org/brunel/build/d3/AxisDetails.java:192-195 | Keeping each element whose position is divisible by k, scanning front to back, gives the stride selection. |
| Sequences.EveryNthLength | core/src/main/java/org/brunel/build/d3/AxisDetails.java:192-195 | k-th element selection keeps ⌈n / k⌉ elements. |
| AxisProperties.SkippedTicksAreThinned | core/src/main/java/org/brunel/build/d3/AxisDetails.java:186-198 | Chosen tick values start with the first category. Each one is a category. With two or more categories, fewer are kept than there are categories. |
| AxisProperties.SkippedTickAt | core/src/main/java/org/brunel/build/d3/AxisDetails.java:191-197 | The i-th chosen tick value is the category at flattened position i·k. |
| AxisProperties.SkippedTicksKeepMultiples | core/src/main/java/org/brunel/build/d3/AxisDetails.java:191-197 | Every category at a position divisible by k is chosen, at index position / k. |
| AxisProperties.SkippedTicksCount | core/src/main/java/org/brunel/build/d3/AxisDetails.java:186-198 | The number of chosen tick values is ⌈n / k⌉. |
| Layout.HorizontalTickWidth | core/src/main/java/org/brunel/build/d3/AxisDetails.java:106-107 | The tick width is the widest label plus 5 when that is at most half the available space. Otherwise it is `(int)` of half the space, which is at most half a non-negative space. |
| Layout.FillsToEdge | core/src/main/java/org/brunel/build/d3/AxisDetails.java:110 | A numeric axis always fills to the edge. A categorical axis fills to the edge iff the caller asks for it. |
| Layout.HorizontalTickSpace | core/src/main/java/org/brunel/build/d3/AxisDetails.java:110-113 | A categorical axis not filling to the edge keeps the whole space. Otherwise exactly one tick width is taken off, which leaves at least half the space when the space is non-negative. |
| Layout.Overflows | core/src/main/java/org/brunel/build/d3/AxisDetails.java:117 | Only a categorical axis overflows. With a non-negative space, it overflows only with two or more categories, because one label always fits. |
| Layout.LayoutHorizontally | core/src/main/java/org/brunel/build/d3/AxisDetails.java:103-145 | Without fields nothing changes. Labels become rotated exactly when a categorical axis overflows; they then get the skipped tick values and height w/√2 rounded toward zero, + 16 + title height. Their gutters are 10 and height − 8 when filling to the edge, and otherwise those values less half the space per tick, floored at 0. Without overflow the size is 20 + title height and the left and right gutters are equal: half the tick width when filling to the edge, otherwise that less half the space per tick, floored at 0. Only an absent tick count on a numeric axis changes: it becomes space / (tickWidth + 5) exactly when ten ticks of tickWidth do not fit. The construction-time fields and the top and bottom gutters never change. |
| Layout.RotatedLayout | core/src/main/java/org/brunel/build/d3/AxisDetails.java:117-129 | The rotated branch sets the gutters to 10 and height − 8 when filling to the edge. When not, each is that value less half the space per tick, floored at 0. The tick values are the skipped ones and the size is height + 16 + title height. |
| Layout.FlatLayout | core/src/main/java/org/brunel/build/d3/AxisDetails.java:130-144 | The gutters are symmetric: half the tick width when filling to the edge, otherwise half the tick width less half the space per tick, floored at 0. The tick count changes iff none was requested and the labels do not fit, and then it becomes space / (tickWidth + 5). |
| AxisProperties.HorizontalReducedCountFits | core/src/main/java/org/brunel/build/d3/AxisDetails.java:140-143 | For an available space from 0 to INT_MAX, a tick count the horizontal layout reduces is below 10, and that many ticks of tickWidth + 5 pixels fit in the space. |
| Layout.LayoutVertically | core/src/main/java/org/brunel/build/d3/AxisDetails.java:209-232 | Without fields nothing changes. Otherwise the top and bottom gutters become 5 and the left and right gutters are untouched. A categorical axis gets the skipped tick values for the space less 10. Only an absent tick count on a numeric axis is reduced, to space / 16, when 16 · 10 exceeds the space. The size is the widest label (or chosen tick) + title height + 10. |
| Layout.VerticalTicks | core/src/main/java/org/brunel/build/d3/AxisDetails.java:218-227 | A categorical axis gets the skipped tick values and keeps its tick count. A numeric axis keeps its tick values. Its tick count is reduced to space / 16 only when none was requested and 16 · 10 exceeds the space. Nothing else changes. |
| AxisProperties.VerticalReducedCountFits | core/src/main/java/org/brunel/build/d3/AxisDetails.java:222-225 | A reduced vertical tick count is below 10. When the space is non-negative, that many 16-pixel ticks fit; when it is negative, the count is not positive. |
| AxisProperties.FullDensityWhenLabelsFit | core/src/main/java/org/brunel/build/d3/AxisDetails.java:130-137 | A categorical axis whose labels fit at full density keeps horizontal labels, shows every category and gets equal gutters. |
| AxisProperties.RotatedTicksAreThinned | core/src/main/java/org/brunel/build/d3/AxisDetails.java:117-120 | When the horizontal layout rotates and thins labels, the shown labels start with the first category and are all categories. They are fewer than the categories when there are two or more. |
| AxisProperties.FiftyCategoriesIn200Pixels | core/src/main/java/org/brunel/build/d3/AxisDetails.java:103-128 | One field with 50 categories in 200 pixels, centred rather than filled to the edge, overflows. The labels are rotated and categories 0, 5, …, 45 are shown. |
| AxisProperties.TinyNegativeWidthWraps | core/src/main/java/org/brunel/build/d3/AxisDetails.java:188-189 | A width of −10⁻⁹ with one category makes `Math.round(20 / spacePerTick)` the long −2·10¹⁰. Its `(int)` cast keeps the low 32 bits, giving a skip frequency of 1,474,836,480. |
| AxisProperties.MillionsExample | core/src/main/java/org/brunel/build/d3/AxisDetails.java:60-69 | A numeric field spanning 0 to 3,500,000 puts the axis in millions. |
| JavaNumerics.QuotientBounds | core/src/main/java/org/brunel/build/d3/AxisDetails.java:142 | For a positive divisor and an in-range non-negative space, `(int) (space / d)` is the largest r with r·d ≤ space. |
| JavaNumerics.RotatedHeightIsProjection | core/src/main/java/org/brunel/build/d3/AxisDetails.java:121 | `(int) (w / Math.sqrt(2))` is w/√2 rounded toward zero: h² ≤ w²/2 < (h±1)². |

## Left out

- `Auto.makeNumericScale` (line 165) builds the numeric scale elsewhere in the
  library. Its sample divisions are the input function `Externals.numericSample`.
- `Field.format`, `Object.toString` and `Data.join` are library services.
  - Formatting and joining are the input functions `Externals.format` and
    `Externals.join`.
  - A tick value's string form is its `text`.
- `Field.property("originalLabel")` and `Field.property("transform")` are
  lookups in a property map. They become the record fields `originalLabel`
  and `transform`.
- A field's minimum and maximum come from one statistics provider. They are
  one optional `Extent`. A field with a maximum but no minimum would throw in
  Java and is not representable.
- Floating point is modelled with exact reals, so double rounding is not
  modelled. Neither are negative zero and an infinite or NaN available space.
  - Infinities and NaN are followed only where the code itself divides by a
    zero tick count or zero width.
  - `(int) (w / Math.sqrt(2))` is the exact w/√2 truncated. Double rounding
    could differ only when w/√2 lies within one ulp of an integer.
- Layout.LayoutHorizontally: does not model 32-bit wrap-around of the int
  expressions `tickWidth * tickCount`, `tickHeight + 16 + …` and `tickWidth + 5`.
  Every int sum and product is unbounded. The product wraps once
  tickWidth × tickCount exceeds 2³¹ − 1. Labels of 100 characters give a tick
  width of 655, so this happens at about 3.3 million categories.
- Layout.LayoutVertically: does not model 32-bit wrap-around of the size sum
  (widest label + title height + 10), which is unbounded here. The product
  `tickWidth * tickCount` of line 223 is only reached on a numeric axis, where it
  is 16 × 10, so it cannot wrap.
- Axis.CountTicks: the running int sum of category counts is unbounded.
- Axis.MaxChars: a label's length is its number of Unicode scalar values.
  Java's `String.length()` (lines 159, 167 and 238) counts UTF-16 code units.
  So a label with a character outside the Basic Multilingual Plane, such as
  an emoji, measures one character shorter per such character than in Java.
- Axis.MaxCategoryWidth: inherits the Unicode-scalar length of Axis.MaxChars.
- Axis.MaxTickWidth: counts label length in Unicode scalar values, for the same
  reason.
- Axis.CollectSkipping: the int position counter `at` is unbounded.
- A layout is a function from an input descriptor to a new one. The Java
  object is mutated in place, and calling a layout twice reads the first call's
  `tickCount` and `tickValues`. The model covers that case by taking any
  descriptor as input.
- The `inMillions()` getter only returns the field, so it has no member of its
  own.
- Rendering is not modelled: the D3 code generation that reads the descriptor
  and chart composition are outside this class.

=== FILE: axis.dfy ===
/** The per-axis descriptor of a chart and the estimates it is built from:
    title resolution, the millions and log classifiers, the nominal tick
    count, label width estimates and category skipping. The two layout
    procedures that fill in the geometry are in module Layout. */
module Axis {
  import opened JavaNumerics
  import opened Sequences
  import opened Fields

  /** A requested tick count at or above this is treated as "not requested". */
  const TICK_REQUEST_LIMIT: int := 100
  /** A field whose extent is wider than this is shown in millions. */
  const MILLIONS_SPAN: real := 2000000.0
  /** Average width of one label character, in pixels. */
  const CHAR_WIDTH: real := 6.5
  /** Numeric labels always get room for at least this many characters. */
  const MIN_NUMERIC_CHARS: nat := 3
  /** Room reserved for an axis title. */
  const TITLE_HEIGHT: nat := 16
  /** Skipping aims at about one category label per this many pixels. */
  const PIXELS_PER_LABEL: real := 20.0
  /** Nominal tick count of a numeric axis. */
  const NUMERIC_TICKS: nat := 10

  /** The display information for one axis. The first group of fields is
      fixed when the axis is built; the geometry group (rotatedTicks through
      bottomGutter) is filled in by one layout call. */
  datatype AxisDetails = AxisDetails(
    title: Option<string>,
    scale: string,
    rotatedTicks: bool,
    tickValues: Option<seq<Value>>,   // if present, only these ticks are shown
    tickCount: Option<int>,           // if present, this many ticks are requested
    size: int,                        // extent perpendicular to the axis direction
    leftGutter: int,
    rightGutter: int,
    topGutter: int,
    bottomGutter: int,
    fields: seq<Field>,
    categorical: bool,
    inMillions: bool)

  /** The geometry of an axis that has not been laid out yet. */
  predicate Unlaid(a: AxisDetails)
  {
    && !a.rotatedTicks
    && a.tickValues.None?
    && a.size == 0
    && a.leftGutter == 0 && a.rightGutter == 0
    && a.topGutter == 0 && a.bottomGutter == 0
  }

  /** Two descriptors agree on everything fixed at construction. */
  predicate SameSpecification(a: AxisDetails, b: AxisDetails)
  {
    && a.title == b.title
    && a.scale == b.scale
    && a.fields == b.fields
    && a.categorical == b.categorical
    && a.inMillions == b.inMillions
  }

  // ---------------------------------------------------------------------
  // Title resolution

  /** Synthetic fields and fields whose name starts with a quote are not
      shown in titles. */
  predicate IsReal(f: Field)
  {
    !f.isSynthetic && !(|f.name| > 0 && f.name[0] == '\'')
  }

  /** The fields that can contribute to a title, in field order. */
  function RealFields(fields: seq<Field>): (r: seq<Field>)
    ensures forall f :: f in r <==> f in fields && IsReal(f)
    ensures |r| <= |fields|
  {
    if |fields| == 0 then []
    else
      var rest := RealFields(fields[1..]);
      assert forall f :: f in fields <==> f == fields[0] || f in fields[1..];
      if IsReal(fields[0]) then [fields[0]] + rest else rest
  }

  /** RealFields is an order-preserving filter: filtering a concatenation
      concatenates the filtered parts. With RealFieldsSingle this fixes the
      result, including order and repeats. */
  lemma {:induction false} RealFieldsAppend(xs: seq<Field>, ys: seq<Field>)
    ensures RealFields(xs + ys) == RealFields(xs) + RealFields(ys)
    decreases |xs|
  {
    if |xs| == 0 {
      assert xs + ys == ys;
    } else {
      assert (xs + ys)[0] == xs[0];
      assert (xs + ys)[1..] == xs[1..] + ys;
      RealFieldsAppend(xs[1..], ys);
    }
  }

  /** A single field is kept iff it is real. */
  lemma RealFieldsSingle(f: Field)
    ensures RealFields([f]) == if IsReal(f) then [f] else []
  {
    assert [f][1..] == [];
  }

  /** The label a field had before any summary was applied. */
  function OriginalLabel(f: Field): string
  {
    if f.originalLabel.Some? then f.originalLabel.value else f.displayLabel
  }

  function DisplayLabels(fields: seq<Field>): (r: seq<string>)
    ensures |r| == |fields|
    ensures forall i :: 0 <= i < |fields| ==> r[i] == fields[i].displayLabel
  {
    seq(|fields|, i requires 0 <= i < |fields| => fields[i].displayLabel)
  }

  function OriginalLabels(fields: seq<Field>): (r: seq<string>)
    ensures |r| == |fields|
    ensures forall i :: 0 <= i < |fields| ==> r[i] == OriginalLabel(fields[i])
  {
    seq(|fields|, i requires 0 <= i < |fields| => OriginalLabel(fields[i]))
  }

  /** The distinct titles of the real fields in first-seen order: their
      original labels when there are strictly fewer distinct ones, otherwise
      their display labels. */
  function TitleSet(fields: seq<Field>): (titles: seq<string>)
    ensures Distinct(titles)
    ensures |titles| == 0 <==> |RealFields(fields)| == 0
    ensures var shown := Dedup(DisplayLabels(RealFields(fields)));
            var original := Dedup(OriginalLabels(RealFields(fields)));
            && (titles == shown || titles == original)
            && |titles| <= |shown| && |titles| <= |original|
            && (|shown| == |original| ==> titles == shown)
    ensures forall t :: t in titles ==>
              exists f :: f in RealFields(fields) && (t == f.displayLabel || t == OriginalLabel(f))
  {
    var realFields := RealFields(fields);
    var shown := Dedup(DisplayLabels(realFields));
    var original := Dedup(OriginalLabels(realFields));
    DisplayLabelsCovered(realFields);
    OriginalLabelsCovered(realFields);
    if |original| < |shown| then original else shown
  }

  lemma DisplayLabelsCovered(fs: seq<Field>)
    ensures var shown := Dedup(DisplayLabels(fs));
            && (forall f :: f in fs ==> f.displayLabel in shown)
            && (forall t :: t in shown ==> exists f :: f in fs && t == f.displayLabel)
            && (|fs| > 0 <==> |shown| > 0)
  {
    var labels := DisplayLabels(fs);
    forall f | f in fs
      ensures f.displayLabel in labels
    {
      var i :| 0 <= i < |fs| && fs[i] == f;
      assert labels[i] == f.displayLabel;
    }
    forall t | t in labels
      ensures exists f :: f in fs && t == f.displayLabel
    {
      var i :| 0 <= i < |fs| && labels[i] == t;
      assert fs[i] in fs;
    }
    if |fs| > 0 {
      assert labels[0] in labels;
    }
  }

  lemma OriginalLabelsCovered(fs: seq<Field>)
    ensures var original := Dedup(OriginalLabels(fs));
            && (forall f :: f in fs ==> OriginalLabel(f) in original)
            && (forall t :: t in original ==> exists f :: f in fs && t == OriginalLabel(f))
            && (|fs| > 0 <==> |original| > 0)
  {
    var labels := OriginalLabels(fs);
    forall f | f in fs
      ensures OriginalLabel(f) in labels
    {
      var i :| 0 <= i < |fs| && fs[i] == f;
      assert labels[i] == OriginalLabel(f);
    }
    forall t | t in labels
      ensures exists f :: f in fs && t == OriginalLabel(f)
    {
      var i :| 0 <= i < |fs| && labels[i] == t;
      assert fs[i] in fs;
    }
    if |fs| > 0 {
      assert labels[0] in labels;
    }
  }

  /** The title derived from the fields: absent when no real field remains,
      otherwise the joined title set. */
  function ComputedTitle(fields: seq<Field>, ext: Externals): (t: Option<string>)
    ensures t.None? <==> forall f :: f in fields ==> !IsReal(f)
    ensures t.Some? ==> t.value == ext.join(TitleSet(fields))
  {
    var titles := TitleSet(fields);
    assert |RealFields(fields)| > 0 ==> RealFields(fields)[0] in RealFields(fields);
    if |titles| == 0 then None else Some(ext.join(titles))
  }

  // ---------------------------------------------------------------------
  // Construction and classifiers

  predicate SpansMillions(f: Field)
  {
    !f.isDate && f.extent.Some? && f.extent.value.max - f.extent.value.min > MILLIONS_SPAN
  }

  /** Scans the fields in order and stops at the first one spanning more than
      two million. */
  function AnySpansMillions(fields: seq<Field>): (r: bool)
    ensures r <==> exists i :: 0 <= i < |fields| && SpansMillions(fields[i])
  {
    if |fields| == 0 then false
    else if SpansMillions(fields[0]) then true
    else
      var rest := AnySpansMillions(fields[1..]);
      assert forall i :: 1 <= i < |fields| ==> fields[1..][i - 1] == fields[i];
      assert rest ==> exists i :: 0 <= i < |fields| && SpansMillions(fields[i]) by {
        if rest {
          var j :| 0 <= j < |fields| - 1 && SpansMillions(fields[1..][j]);
          assert SpansMillions(fields[j + 1]);
        }
      }
      rest
  }

  /** Builds the descriptor for the fields of one dimension, before layout.
      A present user title wins (an empty one means "no title"); a requested
      tick count is kept only below TICK_REQUEST_LIMIT. */
  function NewAxis(dimension: string, fields: seq<Field>, categorical: bool,
                   userTitle: Option<string>, tickCount: int, ext: Externals): (a: AxisDetails)
    ensures a.scale == "scale_" + dimension
    ensures a.fields == fields && a.categorical == categorical
    ensures userTitle == Some("") ==> a.title.None?
    ensures userTitle.Some? && userTitle.value != "" ==> a.title == userTitle
    ensures userTitle.None? ==> a.title == ComputedTitle(fields, ext)
    ensures a.tickCount.Some? <==> tickCount < TICK_REQUEST_LIMIT
    ensures a.tickCount.Some? ==> a.tickCount.value == tickCount
    ensures a.inMillions <==> !categorical && exists i :: 0 <= i < |fields| && SpansMillions(fields[i])
    ensures Unlaid(a)
  {
    AxisDetails(
      title := if userTitle.Some? then (if userTitle.value == "" then None else userTitle)
               else ComputedTitle(fields, ext),
      scale := "scale_" + dimension,
      rotatedTicks := false,
      tickValues := None,
      tickCount := if tickCount < TICK_REQUEST_LIMIT then Some(tickCount) else None,
      size := 0,
      leftGutter := 0, rightGutter := 0, topGutter := 0, bottomGutter := 0,
      fields := fields,
      categorical := categorical,
      inMillions := !categorical && AnySpansMillions(fields))
  }

  /** True when the first field is log-transformed. */
  function IsLog(a: AxisDetails): (r: bool)
    ensures r ==> |a.fields| > 0
    ensures |a.fields| > 0 ==> (r <==> a.fields[0].transform == Some("log"))
  {
    |a.fields| > 0 && a.fields[0].transform == Some("log")
  }

  /** An axis with no fields does not exist and is not drawn. */
  predicate Exists(a: AxisDetails): (r: bool)
    ensures r <==> a.fields != []
  {
    |a.fields| > 0
  }

  // ---------------------------------------------------------------------
  // Tick counting and size estimates

  /** The nominal number of ticks: ten for a numeric axis, otherwise one per
      category over all fields (one when there are no fields). */
  function CountTicks(a: AxisDetails): (n: nat)
    ensures !a.categorical ==> n == NUMERIC_TICKS
    ensures a.categorical && !Exists(a) ==> n == 1
    ensures a.categorical && Exists(a) ==> n == |Flatten(a.fields)|
  {
    if !a.categorical then NUMERIC_TICKS
    else if |a.fields| == 0 then 1
    else CategoryTotal(a.fields)
  }

  function TitleHeight(a: AxisDetails): (h: nat)
    ensures h == 0 <==> a.title.None?
    ensures h == 0 || h == TITLE_HEIGHT
  {
    if a.title.None? then 0 else TITLE_HEIGHT
  }

  /** The size of a horizontal axis whose ticks are not rotated. */
  function SimpleSizeWhenHorizontal(a: AxisDetails): (s: nat)
    ensures !Exists(a) ==> s == 0
    ensures Exists(a) ==> s == 20 + TitleHeight(a)
    ensures Exists(a) ==> 20 <= s <= 20 + TITLE_HEIGHT && (s == 20 <==> a.title.None?)
  {
    if Exists(a) then 20 + TitleHeight(a) else 0
  }

  /** Pixel width of a label of c characters: Java's (int) (c * 6.5), which
      is exactly (13 c) / 2 in integers while it fits in an int. */
  function CharsToPixels(c: nat): (p: int)
    ensures 0 <= p <= INT_MAX
    ensures 13 * c <= 2 * INT_MAX ==> p == (13 * c) / 2
  {
    var x := c as real * CHAR_WIDTH;
    var p := DoubleToInt(x);
    assert 13 * c <= 2 * INT_MAX ==> p == (13 * c) / 2 by {
      if 13 * c <= 2 * INT_MAX {
        assert x == (13 * c) as real / 2.0;
        assert p as real <= x < p as real + 1.0;
        assert 2 * p <= 13 * c < 2 * p + 2;
      }
    }
    p
  }

  lemma CharsToPixelsMonotone(c: nat, d: nat)
    requires c <= d
    ensures CharsToPixels(c) <= CharsToPixels(d)
  {
    assert c as real * CHAR_WIDTH <= d as real * CHAR_WIDTH;
  }

  /** The running maximum `Math.max(acc, ...)` over a sequence of counts. */
  function MaxOf(ns: seq<nat>, acc: nat): (m: nat)
    ensures m >= acc
    ensures forall i :: 0 <= i < |ns| ==> m >= ns[i]
    ensures m == acc || exists i :: 0 <= i < |ns| && m == ns[i]
  {
    if |ns| == 0 then acc
    else
      var m := MaxOf(ns[1..], Max(acc, ns[0]));
      assert forall i :: 1 <= i < |ns| ==> ns[1..][i - 1] == ns[i];
      assert m == acc || m == ns[0] || exists i :: 1 <= i < |ns| && m == ns[i];
      m
  }

  /** Characters needed for a category of a field: its formatted length,
      plus one for the ellipsis of a range. */
  function CategoryChars(f: Field, v: Value, ext: Externals): nat
  {
    |ext.format(f, v)| + (if v.Range? then 1 else 0)
  }

  /** The label lengths measured for one field: its categories on a
      categorical axis, the formatted sample ticks of its scale otherwise. */
  function FieldCharCounts(f: Field, categorical: bool, ext: Externals): (r: seq<nat>)
    ensures categorical ==> |r| == |f.categories|
    ensures categorical ==> forall i :: 0 <= i < |r| ==> r[i] == CategoryChars(f, f.categories[i], ext)
    ensures !categorical ==> |r| == |ext.numericSample(f)|
    ensures !categorical ==> forall i :: 0 <= i < |r| ==> r[i] == |ext.format(f, ext.numericSample(f)[i])|
  {
    if categorical then
      seq(|f.categories|, i requires 0 <= i < |f.categories| => CategoryChars(f, f.categories[i], ext))
    else
      var sample := ext.numericSample(f);
      seq(|sample|, i requires 0 <= i < |sample| => |ext.format(f, sample[i])|)
  }

  /** The widest label, in characters, over all fields, starting from acc;
      a numeric field raises the count to at least MIN_NUMERIC_CHARS. */
  function MaxChars(fields: seq<Field>, categorical: bool, ext: Externals, acc: nat): (m: nat)
    ensures m >= acc
    ensures !categorical && |fields| > 0 ==> m >= MIN_NUMERIC_CHARS
    ensures forall i, j :: 0 <= i < |fields| && 0 <= j < |FieldCharCounts(fields[i], categorical, ext)| ==>
              m >= FieldCharCounts(fields[i], categorical, ext)[j]
  {
    if |fields| == 0 then acc
    else
      var counts := FieldCharCounts(fields[0], categorical, ext);
      var c := MaxOf(counts, acc);
      var next := if categorical then c else Max(c, MIN_NUMERIC_CHARS);
      var m := MaxChars(fields[1..], categorical, ext, next);
      assert forall i :: 1 <= i < |fields| ==> fields[1..][i - 1] == fields[i];
      m
  }

  /** The widest count is attained: it is the start value, the numeric
      minimum, or the length of some measured label. */
  lemma {:induction false} MaxCharsAttained(fields: seq<Field>, categorical: bool, ext: Externals, acc: nat)
    ensures var m := MaxChars(fields, categorical, ext, acc);
            || m == acc
            || (!categorical && m == MIN_NUMERIC_CHARS)
            || exists i, j :: 0 <= i < |fields| && 0 <= j < |FieldCharCounts(fields[i], categorical, ext)| &&
                 m == FieldCharCounts(fields[i], categorical, ext)[j]
  {
    if |fields| > 0 {
      var counts := FieldCharCounts(fields[0], categorical, ext);
      var c := MaxOf(counts, acc);
      var next := if categorical then c else Max(c, MIN_NUMERIC_CHARS);
      var m := MaxChars(fields[1..], categorical, ext, next);
      MaxCharsAttained(fields[1..], categorical, ext, next);
      if m == next && m != acc && !(!categorical && m == MIN_NUMERIC_CHARS) {
        var j :| 0 <= j < |counts| && c == counts[j];
        assert m == FieldCharCounts(fields[0], categorical, ext)[j];
      } else if m != next {
        var i, j :| 0 <= i < |fields[1..]| && 0 <= j < |FieldCharCounts(fields[1..][i], categorical, ext)| &&
                    m == FieldCharCounts(fields[1..][i], categorical, ext)[j];
        assert fields[1..][i] == fields[i + 1];
      }
    }
  }

  /** Estimated pixel width of the widest label the axis shows: 0 without
      fields, otherwise the widest measured label (at least one character,
      at least three on a numeric axis) at CHAR_WIDTH pixels per character. */
  function MaxCategoryWidth(a: AxisDetails, ext: Externals): (w: int)
    ensures !Exists(a) ==> w == 0
    ensures Exists(a) ==> w >= CharsToPixels(1)
    ensures Exists(a) && !a.categorical ==> w >= CharsToPixels(MIN_NUMERIC_CHARS)
    ensures forall i, j :: 0 <= i < |a.fields| && 0 <= j < |FieldCharCounts(a.fields[i], a.categorical, ext)| ==>
              w >= CharsToPixels(FieldCharCounts(a.fields[i], a.categorical, ext)[j])
    ensures Exists(a) ==>
              || w == CharsToPixels(1)
              || (!a.categorical && w == CharsToPixels(MIN_NUMERIC_CHARS))
              || exists i, j :: 0 <= i < |a.fields| && 0 <= j < |FieldCharCounts(a.fields[i], a.categorical, ext)| &&
                   w == CharsToPixels(FieldCharCounts(a.fields[i], a.categorical, ext)[j])
    ensures 0 <= w <= INT_MAX
  {
    if !Exists(a) then 0
    else
      var c := MaxChars(a.fields, a.categorical, ext, 1);
      MaxCharsAttained(a.fields, a.categorical, ext, 1);
      CharsToPixelsMonotone(1, c);
      assert !a.categorical ==> CharsToPixels(c) >= CharsToPixels(MIN_NUMERIC_CHARS) by {
        if !a.categorical {
          CharsToPixelsMonotone(MIN_NUMERIC_CHARS, c);
        }
      }
      assert forall i, j :: 0 <= i < |a.fields| && 0 <= j < |FieldCharCounts(a.fields[i], a.categorical, ext)| ==>
               CharsToPixels(c) >= CharsToPixels(FieldCharCounts(a.fields[i], a.categorical, ext)[j])
      by {
        forall i, j | 0 <= i < |a.fields| && 0 <= j < |FieldCharCounts(a.fields[i], a.categorical, ext)|
          ensures CharsToPixels(c) >= CharsToPixels(FieldCharCounts(a.fields[i], a.categorical, ext)[j])
        {
          CharsToPixelsMonotone(FieldCharCounts(a.fields[i], a.categorical, ext)[j], c);
        }
      }
      CharsToPixels(c)
  }

  /** Characters needed for a chosen tick value: its plain string form, plus
      one for the ellipsis of a range. */
  function TickChars(v: Value): nat
  {
    |v.text| + (if v.Range? then 1 else 0)
  }

  function TickCharCounts(values: seq<Value>): (r: seq<nat>)
    ensures |r| == |values|
    ensures forall i :: 0 <= i < |values| ==> r[i] == TickChars(values[i])
  {
    seq(|values|, i requires 0 <= i < |values| => TickChars(values[i]))
  }

  /** Estimated pixel width of the widest of the chosen tick values. */
  function MaxTickWidth(values: seq<Value>): (w: int)
    ensures w >= CharsToPixels(1)
    ensures forall i :: 0 <= i < |values| ==> w >= CharsToPixels(TickChars(values[i]))
    ensures w == CharsToPixels(1) || exists i :: 0 <= i < |values| && w == CharsToPixels(TickChars(values[i]))
    ensures 0 <= w <= INT_MAX
  {
    var counts := TickCharCounts(values);
    var c := MaxOf(counts, 1);
    CharsToPixelsMonotone(1, c);
    assert forall i :: 0 <= i < |values| ==> CharsToPixels(c) >= CharsToPixels(TickChars(values[i])) by {
      forall i | 0 <= i < |values|
        ensures CharsToPixels(c) >= CharsToPixels(TickChars(values[i]))
      {
        CharsToPixelsMonotone(counts[i], c);
      }
    }
    CharsToPixels(c)
  }

  // ---------------------------------------------------------------------
  // Tick skipping

  /** Java's `(int) Math.round(20 / (width / count))`: how many categories
      share one label slot when labels need about PIXELS_PER_LABEL pixels.
      A zero count or width makes the double division produce an infinity or
      NaN, which is followed through Java's rounding and narrowing rules. */
  function SkipFrequency(width: real, count: nat): (k: int)
    ensures count == 0 || width == 0.0 ==> k < 2
    ensures count > 0 && width != 0.0 && INT_MIN as real - 0.5 <= PIXELS_PER_LABEL * count as real / width < INT_MAX as real + 0.5
            ==> k == (PIXELS_PER_LABEL * count as real / width + 0.5).Floor
    ensures count > 0 && width < 0.0 && PIXELS_PER_LABEL * count as real / width >= INT_MIN as real - 0.5 ==> k <= 0
  {
    if count == 0 then
      // width / 0 is an infinity or NaN; 20 divided by it is 0 or NaN, and both round to 0
      0
    else if width == 0.0 then
      // 20 / +0.0 is +Infinity, which rounds to Long.MAX_VALUE; its low 32 bits are -1
      LongToInt(LONG_MAX)
    else
      var x := PIXELS_PER_LABEL / (width / count as real);
      assert x == PIXELS_PER_LABEL * count as real / width;
      LongToInt(RoundToLong(x))
  }

  /** The categories to label when they must be thinned out: absent on a
      numeric axis or when no skipping is needed; otherwise every k-th entry
      of the flattened category list, k being the skip frequency. */
  function MakeSkippingTickValues(a: AxisDetails, width: real, count: nat): (r: Option<seq<Value>>)
    ensures r.Some? <==> a.categorical && SkipFrequency(width, count) >= 2
    ensures r.Some? ==>
              var k := SkipFrequency(width, count);
              var all := Flatten(a.fields);
              && (|all| == 0 ==> |r.value| == 0)
              && (|all| > 0 ==> (|r.value| - 1) * k < |all| <= |r.value| * k)
  {
    if !a.categorical then None
    else
      var k := SkipFrequency(width, count);
      if k < 2 then None
      else
        EveryNthBounds(Flatten(a.fields), k);
        Some(EveryNth(Flatten(a.fields), k))
  }

  /** The loop that collects the thinned-out categories: one running
      position over the categories of all fields, keeping those at a
      multiple of the skip frequency k. */
  method CollectSkipping(fields: seq<Field>, k: nat) returns (useThese: seq<Value>)
    requires k >= 1
    ensures useThese == EveryNth(Flatten(fields), k)
  {
    useThese := [];
    var at := 0;
    for fi := 0 to |fields|
      invariant at == |Flatten(fields[..fi])|
      invariant useThese == KeepAtMultiples(Flatten(fields[..fi]), k)
    {
      var done := Flatten(fields[..fi]);
      var cats := fields[fi].categories;
      assert done + cats[..0] == done;
      for ci := 0 to |cats|
        invariant at == |done| + ci
        invariant useThese == KeepAtMultiples(done + cats[..ci], k)
      {
        ghost var next := done + cats[..ci + 1];
        assert next[..|next| - 1] == done + cats[..ci];
        assert next[|next| - 1] == cats[ci];
        if at % k == 0 {
          useThese := useThese + [cats[ci]];
        }
        at := at + 1;
      }
      assert cats[..|cats|] == cats;
      assert fields[..fi + 1][..fi] == fields[..fi];
    }
    assert fields[..|fields|] == fields;
    KeepAtMultiplesIsEveryNth(Flatten(fields), k);
  }
}

=== FILE: fields.dfy ===
/** The data fields an axis displays, reduced to what the layout reads from
    them, and the external services the layout calls. */
module Fields {

  datatype Option<T> = None | Some(value: T)

  /** A category value: a plain scalar, or a range of values (drawn with an
      ellipsis between its ends). `text` is the value's plain string form. */
  datatype Value = Scalar(text: string) | Range(text: string)

  /** The numeric extent of a field; the statistics provider supplies the
      minimum and the maximum together. */
  datatype Extent = Extent(min: real, max: real)

  datatype Field = Field(
    name: string,
    displayLabel: string,
    originalLabel: Option<string>,   // the label before any summary was applied
    isSynthetic: bool,
    isDate: bool,
    extent: Option<Extent>,
    categories: seq<Value>,
    transform: Option<string>)       // e.g. Some("log")

  /** Services provided by the rest of the library: formatting a value for a
      field, the sample tick values the numeric scale builder would produce
      for a field (about five divisions), and joining titles into one string. */
  datatype Externals = Externals(
    format: (Field, Value) -> string,
    numericSample: Field -> seq<Value>,
    join: seq<string> -> string)

  /** The number of categories over all fields. */
  function CategoryTotal(fields: seq<Field>): nat
  {
    if |fields| == 0 then 0
    else CategoryTotal(fields[..|fields| - 1]) + |fields[|fields| - 1].categories|
  }

  /** All categories of all fields, field by field, in order. */
  function Flatten(fields: seq<Field>): (r: seq<Value>)
    ensures |r| == CategoryTotal(fields)
  {
    if |fields| == 0 then []
    else Flatten(fields[..|fields| - 1]) + fields[|fields| - 1].categories
  }

  /** A value is among the flattened categories exactly when some field has
      it as a category. */
  lemma {:induction false} FlattenMembers(fields: seq<Field>)
    ensures forall i :: 0 <= i < |fields| ==> forall v :: v in fields[i].categories ==> v in Flatten(fields)
    ensures forall v :: v in Flatten(fields) ==> exists i :: 0 <= i < |fields| && v in fields[i].categories
  {
    if |fields| > 0 {
      var front := fields[..|fields| - 1];
      FlattenMembers(front);
      assert forall i :: 0 <= i < |front| ==> front[i] == fields[i];
    }
  }

  /** The first category of the first field comes first. */
  lemma {:induction false} FlattenStartsWithFirstField(fields: seq<Field>)
    requires |fields| > 0 && |fields[0].categories| > 0
    ensures |Flatten(fields)| > 0 && Flatten(fields)[0] == fields[0].categories[0]
  {
    if |fields| > 1 {
      var front := fields[..|fields| - 1];
      assert front[0] == fields[0];
      FlattenStartsWithFirstField(front);
    }
  }
}

=== FILE: java_numerics.dfy ===
/** Java's numeric conversions as they are used by the axis layout code.
    Pixel quantities in the layout are Java doubles and ints; here a double is a
    `real` and an int is an `int`, and each narrowing conversion the layout
    performs is written out explicitly. */
module JavaNumerics {

  const INT_MIN: int := -0x8000_0000
  const INT_MAX: int := 0x7FFF_FFFF
  const LONG_MIN: int := -0x8000_0000_0000_0000
  const LONG_MAX: int := 0x7FFF_FFFF_FFFF_FFFF

  function Max(a: int, b: int): (m: int)
    ensures m >= a && m >= b
    ensures m == a || m == b
  {
    if a >= b then a else b
  }

  /** Rounds a real toward zero. */
  function Truncate(x: real): (t: int)
    ensures x >= 0.0 ==> t as real <= x < t as real + 1.0
    ensures x <= 0.0 ==> t as real - 1.0 < x <= t as real
  {
    if x >= 0.0 then x.Floor else -((-x).Floor)
  }

  /** Java's `(int) d` for a finite double `d`: rounds toward zero and
      saturates at the bounds of a 32-bit int. */
  function DoubleToInt(x: real): (r: int)
    ensures INT_MIN <= r <= INT_MAX
    ensures 0.0 <= x <= INT_MAX as real ==> r as real <= x < r as real + 1.0
    ensures INT_MIN as real <= x <= 0.0 ==> r as real - 1.0 < x <= r as real
    ensures x >= INT_MAX as real ==> r == INT_MAX
    ensures x <= INT_MIN as real ==> r == INT_MIN
  {
    var t := Truncate(x);
    if t > INT_MAX then INT_MAX else if t < INT_MIN then INT_MIN else t
  }

  /** Java's `(int) (x / d)` where the int `d` is widened to a double. A zero
      divisor yields an infinity (or NaN for 0/0), which the cast maps to
      INT_MAX, INT_MIN or 0. */
  function QuotientToInt(x: real, d: int): (r: int)
    ensures INT_MIN <= r <= INT_MAX
    ensures d == 0 ==> (r == INT_MAX <==> x > 0.0) && (r == INT_MIN <==> x < 0.0) && (r == 0 <==> x == 0.0)
    ensures d >= 0 && x >= 0.0 ==> r >= 0
  {
    if d == 0 then
      (if x > 0.0 then INT_MAX else if x < 0.0 then INT_MIN else 0)
    else
      assert d > 0 && x >= 0.0 ==> x / d as real >= 0.0;
      DoubleToInt(x / d as real)
  }

  /** For a positive divisor and a non-negative dividend within int range,
      the quotient cast is the largest r with r * d <= x. */
  lemma QuotientBounds(x: real, d: int)
    requires d > 0 && 0.0 <= x <= INT_MAX as real
    ensures var r := QuotientToInt(x, d);
            0 <= r && r * d <= x.Floor < (r + 1) * d
  {
    var r := QuotientToInt(x, d);
    var e := d as real;
    var q := x / e;
    assert q * e == x;
    assert 0.0 <= q <= x by { QuotientAtMost(x, e, q); }
    assert r as real <= q < r as real + 1.0;
    Bracket(x, e, q, r);
    FloorBracket(x, r, d);
  }

  /** Moves r * d <= x < (r + 1) * d from reals to the floor of x. */
  lemma FloorBracket(x: real, r: int, d: int)
    requires d > 0 && r as real * d as real <= x < (r as real + 1.0) * d as real
    ensures r * d <= x.Floor < (r + 1) * d
  {
    assert (r * d) as real == r as real * d as real;
    assert ((r + 1) * d) as real == (r as real + 1.0) * d as real;
  }

  lemma QuotientAtMost(x: real, e: real, q: real)
    requires e >= 1.0 && x >= 0.0 && q * e == x
    ensures 0.0 <= q <= x
  {
    if q < 0.0 {
      RealScale(q, 0.0, e);
    }
    RealScale(1.0, e, q);
  }

  lemma Bracket(x: real, e: real, q: real, r: int)
    requires e >= 1.0 && q * e == x
    requires r as real <= q < r as real + 1.0
    ensures r as real * e <= x < (r as real + 1.0) * e
  {
    var lo := r as real;
    var hi := lo + 1.0;
    RealScale(lo, q, e);
    RealScale(q, hi, e);
    assert lo * e <= x < hi * e;
  }

  lemma RealScale(a: real, b: real, c: real)
    requires a <= b && c >= 0.0
    ensures a * c <= b * c
    ensures a < b && c > 0.0 ==> a * c < b * c
  {
  }

  /** Java's `Math.round(double)` for a finite double: floor(x + 1/2),
      saturating at the bounds of a 64-bit long. */
  function RoundToLong(x: real): (r: int)
    ensures LONG_MIN <= r <= LONG_MAX
    ensures LONG_MIN as real <= x <= LONG_MAX as real - 0.5 ==> r as real - 0.5 <= x < r as real + 0.5
  {
    var f := (x + 0.5).Floor;
    if f > LONG_MAX then LONG_MAX else if f < LONG_MIN then LONG_MIN else f
  }

  /** Java's narrowing `(int)` of a long: keeps the low 32 bits. */
  function LongToInt(l: int): (r: int)
    ensures INT_MIN <= r <= INT_MAX
    ensures (l - r) % 0x1_0000_0000 == 0
    ensures INT_MIN <= l <= INT_MAX ==> r == l
  {
    (l - INT_MIN) % 0x1_0000_0000 + INT_MIN
  }

  /** Java's `a / 2` on ints: rounds toward zero. */
  function Half(a: int): (h: int)
    ensures a >= 0 ==> 0 <= h && 2 * h <= a <= 2 * h + 1
    ensures a <= 0 ==> h <= 0 && 2 * h - 1 <= a <= 2 * h
  {
    if a >= 0 then a / 2 else -((-a) / 2)
  }

  /** floor(w / sqrt 2) for a non-negative w, computed without irrationals:
      the unique h with 2h^2 <= w^2 < 2(h+1)^2. Each step of w moves w / sqrt 2
      by less than one, so h grows by at most one per step. */
  function HalfDiagonal(w: nat): (h: nat)
    ensures 2 * h * h <= w * w < 2 * (h + 1) * (h + 1)
    ensures h <= w
  {
    if w == 0 then 0
    else
      var p := HalfDiagonal(w - 1);
      assert (w - 1) * (w - 1) <= w * w;
      if 2 * (p + 1) * (p + 1) <= w * w then
        NextHalfDiagonal(w, p);
        p + 1
      else
        assert p <= w - 1;
        p
  }

  lemma NextHalfDiagonal(w: nat, p: nat)
    requires w >= 1
    requires (w - 1) * (w - 1) < 2 * (p + 1) * (p + 1)
    requires 2 * (p + 1) * (p + 1) <= w * w
    ensures w * w < 2 * (p + 2) * (p + 2)
    ensures p + 1 <= w
  {
    var v: nat := w - 1;
    var q: nat := p + 1;
    var vv := v * v;
    var qq := q * q;
    assert vv < 2 * qq;
    assert w * w == vv + 2 * v + 1 by { SquareStep(v); }
    assert 2 * (p + 2) * (p + 2) == 2 * qq + 4 * q + 2 by { SquareStep(q); }
    assert 2 * qq <= w * w;
    assert v < 2 * q by { BelowDouble(v, q); }
    assert q <= w by { AtMostSide(w, q); }
  }

  /** v^2 < 2q^2 forces v < 2q. */
  lemma BelowDouble(v: nat, q: nat)
    requires v * v < 2 * (q * q)
    ensures v < 2 * q
  {
    assert (2 * q) * (2 * q) == 4 * (q * q);
    if v >= 2 * q {
      MulMono(2 * q, v);
      assert false;
    }
  }

  /** 2q^2 <= w^2 forces q <= w. */
  lemma AtMostSide(w: nat, q: nat)
    requires 2 * (q * q) <= w * w
    ensures q <= w
  {
    if q > w {
      MulMono(w + 1, q);
      SquareStep(w);
      assert false;
    }
  }

  lemma SquareStep(a: int)
    ensures (a + 1) * (a + 1) == a * a + 2 * a + 1
    ensures 2 * (a + 1) * (a + 1) == 2 * (a * a) + 4 * a + 2
  {
  }

  lemma MulMono(a: nat, b: nat)
    requires a <= b
    ensures a * a <= b * b
  {
    assert a * a <= a * b <= b * b;
  }

  /** Java's `(int) (w / Math.sqrt(2))` for an int w: the 45-degree projection
      of a label of width w, rounded toward zero. */
  function RotatedHeight(w: int): (h: int)
    ensures w >= 0 ==> 0 <= h <= w
    ensures w <= 0 ==> w <= h <= 0
  {
    if w >= 0 then HalfDiagonal(w) else var d: int := HalfDiagonal(-w); -d
  }

  /** RotatedHeight(w) is w / sqrt 2 rounded toward zero: its square is at
      most half of w^2, and one more step away from zero would exceed it. */
  lemma RotatedHeightIsProjection(w: int)
    ensures var h := RotatedHeight(w);
            && 2 * h * h <= w * w
            && (w >= 0 ==> w * w < 2 * (h + 1) * (h + 1))
            && (w <= 0 ==> w * w < 2 * (h - 1) * (h - 1))
  {
    if w >= 0 {
      var d := HalfDiagonal(w);
      assert RotatedHeight(w) == d;
    } else {
      var v: nat := -w;
      var d: int := HalfDiagonal(v);
      assert RotatedHeight(w) == -d;
      Mirror(w, v, d);
    }
  }

  lemma Mirror(w: int, v: int, d: int)
    requires v == -w
    requires 2 * d * d <= v * v < 2 * (d + 1) * (d + 1)
    ensures 2 * (-d) * (-d) <= w * w < 2 * (-d - 1) * (-d - 1)
  {
    var dd := d * d;
    var vv := v * v;
    var ee := (d + 1) * (d + 1);
    NegSquare(d);
    NegSquare(v);
    NegSquare(d + 1);
    assert 2 * (-d) * (-d) == 2 * dd;
    assert w * w == vv;
    assert 2 * (-d - 1) * (-d - 1) == 2 * ee;
  }

  lemma NegSquare(a: int)
    ensures (-a) * (-a) == a * a
  {
  }
}

=== FILE: layout.dfy ===
/** The two layout procedures of an axis. Each takes a descriptor that has
    been built but not laid out, plus the space available along the axis,
    and returns the descriptor with its geometry filled in. */
module Layout {
  import opened JavaNumerics
  import opened Fields
  import opened Axis

  /** Margin added to the widest label to get the width of one tick. */
  const TICK_MARGIN: int := 5
  /** Allowance for tick marks under rotated labels. */
  const TICK_MARK_ALLOWANCE: int := 16
  /** Space a vertical numeric axis wants between ticks. */
  const VERTICAL_TICK_SPACING: int := 16
  /** Fixed gutter above and below a vertical axis. */
  const VERTICAL_GUTTER: int := 5
  /** Allowance for tick marks and the gap to the title on a vertical axis. */
  const VERTICAL_TICK_ALLOWANCE: int := 10

  // ---------------------------------------------------------------------
  // Horizontal layout

  /** Width given to each tick: the widest label plus a margin, but never
      more than half the available space. */
  function HorizontalTickWidth(a: AxisDetails, availableSpace: real, ext: Externals): (w: int)
    ensures w <= MaxCategoryWidth(a, ext) + TICK_MARGIN
    ensures (MaxCategoryWidth(a, ext) + TICK_MARGIN) as real <= availableSpace * 0.5 ==>
              w == MaxCategoryWidth(a, ext) + TICK_MARGIN
    ensures (MaxCategoryWidth(a, ext) + TICK_MARGIN) as real > availableSpace * 0.5 ==>
              w == DoubleToInt(availableSpace * 0.5)
    ensures availableSpace >= 0.0 ==> 0 <= w && w as real <= availableSpace * 0.5
  {
    var wanted := MaxCategoryWidth(a, ext) + TICK_MARGIN;
    if wanted as real > availableSpace * 0.5 then DoubleToInt(availableSpace * 0.5) else wanted
  }

  /** Numeric ticks may always run to the edge of the plot. */
  predicate FillsToEdge(a: AxisDetails, fillToEdge: bool): (r: bool)
    ensures !a.categorical ==> r
    ensures a.categorical ==> (r <==> fillToEdge)
  {
    fillToEdge || !a.categorical
  }

  /** The space left for ticks once a tick width is reserved for the
      overhang of the first and last labels when filling to the edge. */
  function HorizontalTickSpace(a: AxisDetails, availableSpace: real, fillToEdge: bool, ext: Externals): (s: real)
    ensures !FillsToEdge(a, fillToEdge) ==> s == availableSpace
    ensures FillsToEdge(a, fillToEdge) ==> s == availableSpace - HorizontalTickWidth(a, availableSpace, ext) as real
    ensures availableSpace >= 0.0 ==> availableSpace * 0.5 <= s <= availableSpace
  {
    var tickWidth := HorizontalTickWidth(a, availableSpace, ext);
    if FillsToEdge(a, fillToEdge) then availableSpace - tickWidth as real else availableSpace
  }

  /** Categorical labels at full density would overlap: the ticks must be
      rotated. A single label always fits in a non-negative space, because
      the tick width is at most half of it. */
  predicate Overflows(a: AxisDetails, availableSpace: real, fillToEdge: bool, ext: Externals): (r: bool)
    ensures r ==> a.categorical
    ensures r && availableSpace >= 0.0 ==> CountTicks(a) >= 2
  {
    var space := HorizontalTickSpace(a, availableSpace, fillToEdge, ext);
    var tickWidth := HorizontalTickWidth(a, availableSpace, ext);
    var n := CountTicks(a);
    assert availableSpace >= 0.0 && n <= 1 ==> space >= (tickWidth * n) as real by {
      if availableSpace >= 0.0 && n == 0 {
        assert tickWidth * n == 0;
      } else if availableSpace >= 0.0 && n == 1 {
        assert tickWidth * n == tickWidth;
        assert tickWidth as real <= availableSpace * 0.5 <= space;
      }
    }
    a.categorical && space < (tickWidth * n) as real
  }

  /** Lays the axis out along the horizontal direction in availableSpace
      pixels; fillToEdge asks for ticks at the plot edges rather than
      centred in their slots. */
  function LayoutHorizontally(a: AxisDetails, availableSpace: real, fillToEdge: bool, ext: Externals): (r: AxisDetails)
    ensures !Exists(a) ==> r == a
    ensures SameSpecification(a, r)
    ensures r.topGutter == a.topGutter && r.bottomGutter == a.bottomGutter
    ensures Exists(a) ==> (r.rotatedTicks <==> a.rotatedTicks || Overflows(a, availableSpace, fillToEdge, ext))
    ensures r.rotatedTicks != a.rotatedTicks ==> a.categorical
    ensures a.tickCount.Some? ==> r.tickCount == a.tickCount
    ensures Exists(a) && Overflows(a, availableSpace, fillToEdge, ext) ==>
              && r.tickValues == MakeSkippingTickValues(a, HorizontalTickSpace(a, availableSpace, fillToEdge, ext), CountTicks(a))
              && r.size == RotatedHeight(HorizontalTickWidth(a, availableSpace, ext)) + TICK_MARK_ALLOWANCE + TitleHeight(a)
              && r.tickCount == a.tickCount
    ensures Exists(a) && Overflows(a, availableSpace, fillToEdge, ext) && !FillsToEdge(a, fillToEdge) ==>
              var slot := QuotientToInt(availableSpace, CountTicks(a));
              && r.rightGutter == Max(0, 10 - Half(slot))
              && r.leftGutter == Max(0, RotatedHeight(HorizontalTickWidth(a, availableSpace, ext)) - 8 - Half(slot))
    ensures Exists(a) && Overflows(a, availableSpace, fillToEdge, ext) && FillsToEdge(a, fillToEdge) ==>
              r.rightGutter == 10 && r.leftGutter == RotatedHeight(HorizontalTickWidth(a, availableSpace, ext)) - 8
    ensures Exists(a) && !Overflows(a, availableSpace, fillToEdge, ext) ==>
              && r.tickValues == a.tickValues
              && r.size == SimpleSizeWhenHorizontal(a)
              && r.leftGutter == r.rightGutter
              && (availableSpace >= 0.0 ==> r.leftGutter <= Half(HorizontalTickWidth(a, availableSpace, ext)))
              && (FillsToEdge(a, fillToEdge) ==> r.leftGutter == Half(HorizontalTickWidth(a, availableSpace, ext)))
              && (!FillsToEdge(a, fillToEdge) ==>
                    r.leftGutter == Max(0, Half(HorizontalTickWidth(a, availableSpace, ext))
                                           - Half(QuotientToInt(availableSpace, CountTicks(a)))))
    ensures r.tickCount != a.tickCount ==>
              && !a.categorical
              && a.tickCount.None?
              && var space := HorizontalTickSpace(a, availableSpace, fillToEdge, ext);
                 var tickWidth := HorizontalTickWidth(a, availableSpace, ext);
                 && space < (tickWidth * NUMERIC_TICKS) as real
                 && r.tickCount == Some(QuotientToInt(space, tickWidth + TICK_MARGIN))
    ensures Exists(a) && !a.categorical && a.tickCount.None? ==>
              var space := HorizontalTickSpace(a, availableSpace, fillToEdge, ext);
              var tickWidth := HorizontalTickWidth(a, availableSpace, ext);
              r.tickCount == if space < (tickWidth * NUMERIC_TICKS) as real
                             then Some(QuotientToInt(space, tickWidth + TICK_MARGIN)) else None
  {
    if !Exists(a) then a
    else
      var tickWidth := HorizontalTickWidth(a, availableSpace, ext);
      var tickCount := CountTicks(a);
      var space := HorizontalTickSpace(a, availableSpace, fillToEdge, ext);
      if a.categorical && space < (tickWidth * tickCount) as real then
        RotatedLayout(a, tickWidth, tickCount, space, FillsToEdge(a, fillToEdge))
      else
        FlatLayout(a, tickWidth, tickCount, space, FillsToEdge(a, fillToEdge))
  }

  /** The overflow branch: labels are rotated by 45 degrees and, if need be,
      thinned out. */
  function RotatedLayout(a: AxisDetails, tickWidth: int, tickCount: nat, space: real, edge: bool): (r: AxisDetails)
    ensures SameSpecification(a, r) && r.tickCount == a.tickCount
    ensures r.topGutter == a.topGutter && r.bottomGutter == a.bottomGutter
    ensures r.rotatedTicks
    ensures r.tickValues == MakeSkippingTickValues(a, space, tickCount)
    ensures r.size == RotatedHeight(tickWidth) + TICK_MARK_ALLOWANCE + TitleHeight(a)
    ensures edge ==> r.rightGutter == 10 && r.leftGutter == RotatedHeight(tickWidth) - 8
    ensures !edge ==> 0 <= r.rightGutter && 0 <= r.leftGutter
    ensures !edge && space >= 0.0 ==> r.rightGutter <= 10 && r.leftGutter <= Max(0, RotatedHeight(tickWidth) - 8)
    ensures !edge ==>
              var slot := QuotientToInt(space, tickCount);
              r.rightGutter == Max(0, 10 - Half(slot))
              && r.leftGutter == Max(0, RotatedHeight(tickWidth) - 8 - Half(slot))
  {
    var spaceForOneTick := QuotientToInt(space, tickCount);
    var tickHeight := RotatedHeight(tickWidth);
    a.(rotatedTicks := true,
       tickValues := MakeSkippingTickValues(a, space, tickCount),
       size := tickHeight + TICK_MARK_ALLOWANCE + TitleHeight(a),
       // the labels hang down and to the left of their ticks
       leftGutter := if edge then tickHeight - 8 else Max(0, tickHeight - 8 - Half(spaceForOneTick)),
       rightGutter := if edge then 10 else Max(0, 10 - Half(spaceForOneTick)))
  }

  /** The simple branch: horizontal labels with symmetric gutters. */
  function FlatLayout(a: AxisDetails, tickWidth: int, tickCount: nat, space: real, edge: bool): (r: AxisDetails)
    requires Exists(a)
    ensures SameSpecification(a, r) && r.rotatedTicks == a.rotatedTicks && r.tickValues == a.tickValues
    ensures r.topGutter == a.topGutter && r.bottomGutter == a.bottomGutter
    ensures r.size == SimpleSizeWhenHorizontal(a)
    ensures r.leftGutter == r.rightGutter
    ensures edge ==> r.leftGutter == Half(tickWidth)
    ensures !edge ==> r.leftGutter >= 0
    ensures !edge ==> r.leftGutter == Max(0, Half(tickWidth) - Half(QuotientToInt(space, tickCount)))
    ensures tickWidth >= 0 && space >= 0.0 ==> r.leftGutter <= Half(tickWidth)
    ensures a.tickCount.Some? ==> r.tickCount == a.tickCount
    ensures r.tickCount != a.tickCount <==> a.tickCount.None? && space < (tickWidth * tickCount) as real
    ensures r.tickCount != a.tickCount ==> r.tickCount == Some(QuotientToInt(space, tickWidth + TICK_MARGIN))
  {
    var spaceForOneTick := QuotientToInt(space, tickCount);
    var gutter := if edge then Half(tickWidth) else Max(0, Half(tickWidth) - Half(spaceForOneTick));
    a.(size := SimpleSizeWhenHorizontal(a),
       leftGutter := gutter,
       rightGutter := gutter,
       tickCount :=
         // a count the caller asked for is never replaced
         if space < (tickWidth * tickCount) as real && a.tickCount.None? then
           Some(QuotientToInt(space, tickWidth + TICK_MARGIN))
         else a.tickCount)
  }

  // ---------------------------------------------------------------------
  // Vertical layout

  /** Lays the axis out along the vertical direction in availableSpace
      pixels. */
  function LayoutVertically(a: AxisDetails, availableSpace: real, ext: Externals): (r: AxisDetails)
    ensures !Exists(a) ==> r == a
    ensures SameSpecification(a, r)
    ensures r.leftGutter == a.leftGutter && r.rightGutter == a.rightGutter
    ensures r.rotatedTicks == a.rotatedTicks
    ensures Exists(a) ==> r.topGutter == VERTICAL_GUTTER && r.bottomGutter == VERTICAL_GUTTER
    ensures a.tickCount.Some? ==> r.tickCount == a.tickCount
    ensures Exists(a) && a.categorical ==>
              r.tickValues == MakeSkippingTickValues(a, availableSpace - (2 * VERTICAL_GUTTER) as real, CountTicks(a))
    ensures !a.categorical ==> r.tickValues == a.tickValues
    ensures Exists(a) && !a.categorical && a.tickCount.None? ==>
              var space := availableSpace - (2 * VERTICAL_GUTTER) as real;
              r.tickCount == if (VERTICAL_TICK_SPACING * NUMERIC_TICKS) as real > space
                             then Some(QuotientToInt(space, VERTICAL_TICK_SPACING)) else None
    ensures r.tickCount != a.tickCount ==> !a.categorical && a.tickCount.None?
    ensures Exists(a) ==>
              r.size == (if r.tickValues.None? then MaxCategoryWidth(a, ext) else MaxTickWidth(r.tickValues.value))
                        + TitleHeight(a) + VERTICAL_TICK_ALLOWANCE
  {
    if !Exists(a) then a
    else
      var space := availableSpace - (2 * VERTICAL_GUTTER) as real;
      var ticked := VerticalTicks(a, space);
      assert ticked == a.(tickValues := ticked.tickValues, tickCount := ticked.tickCount);
      var labelWidth :=
        if ticked.tickValues.None? then MaxCategoryWidth(a, ext) else MaxTickWidth(ticked.tickValues.value);
      a.(tickValues := ticked.tickValues,
         tickCount := ticked.tickCount,
         topGutter := VERTICAL_GUTTER,
         bottomGutter := VERTICAL_GUTTER,
         size := labelWidth + TitleHeight(a) + VERTICAL_TICK_ALLOWANCE)
  }

  /** The tick choice of the vertical layout in `space` pixels: categories
      are thinned out; a numeric axis without a requested count gets one that
      spaces ticks VERTICAL_TICK_SPACING pixels apart when ten do not fit. */
  function VerticalTicks(a: AxisDetails, space: real): (t: AxisDetails)
    ensures t == a.(tickValues := t.tickValues, tickCount := t.tickCount)
    ensures a.categorical ==> t.tickValues == MakeSkippingTickValues(a, space, CountTicks(a)) && t.tickCount == a.tickCount
    ensures !a.categorical ==> t.tickValues == a.tickValues
    ensures !a.categorical && a.tickCount.None? ==>
              t.tickCount == if (VERTICAL_TICK_SPACING * NUMERIC_TICKS) as real > space
                             then Some(QuotientToInt(space, VERTICAL_TICK_SPACING)) else None
    ensures t.tickCount != a.tickCount ==> !a.categorical && a.tickCount.None?
  {
    var tickCount := CountTicks(a);
    if a.categorical then
      a.(tickValues := MakeSkippingTickValues(a, space, tickCount))
    else if (VERTICAL_TICK_SPACING * tickCount) as real > space && a.tickCount.None? then
      a.(tickCount := Some(QuotientToInt(space, VERTICAL_TICK_SPACING)))
    else a
  }
}

=== FILE: properties.dfy ===
/** Properties of the axis layout that relate several operations, and
    worked examples. */
module AxisProperties {
  import opened JavaNumerics
  import opened Sequences
  import opened Fields
  import opened Axis
  import opened Layout

  /** When no real field has an original label, the title set is exactly the
      distinct display labels in first-seen order. */
  lemma TitleSetWithoutOriginalLabels(fields: seq<Field>)
    requires forall f :: f in fields ==> f.originalLabel.None?
    ensures TitleSet(fields) == Dedup(DisplayLabels(RealFields(fields)))
  {
    var realFields := RealFields(fields);
    assert OriginalLabels(realFields) == DisplayLabels(realFields) by {
      forall i | 0 <= i < |realFields|
        ensures OriginalLabels(realFields)[i] == DisplayLabels(realFields)[i]
      {
        assert realFields[i] in realFields;
      }
    }
  }

  /** When labels are already distinct and no field is summarised, the
      computed title joins the display labels of the real fields in order. */
  lemma TitleOfDistinctLabels(fields: seq<Field>, ext: Externals)
    requires forall f :: f in fields ==> f.originalLabel.None?
    requires Distinct(DisplayLabels(RealFields(fields)))
    requires exists f :: f in fields && IsReal(f)
    ensures ComputedTitle(fields, ext) == Some(ext.join(DisplayLabels(RealFields(fields))))
  {
    TitleSetWithoutOriginalLabels(fields);
    DedupOfDistinct(DisplayLabels(RealFields(fields)));
  }

  /** For an available space from 0 to INT_MAX, a tick count the
      horizontal layout reduces is a count that fits: that many ticks of tickWidth + 5 pixels fit in the space, and there are
      fewer of them than the nominal ten. */
  lemma HorizontalReducedCountFits(a: AxisDetails, availableSpace: real, fillToEdge: bool, ext: Externals)
    requires Exists(a)
    requires 0.0 <= availableSpace <= INT_MAX as real
    requires LayoutHorizontally(a, availableSpace, fillToEdge, ext).tickCount != a.tickCount
    ensures var n := LayoutHorizontally(a, availableSpace, fillToEdge, ext).tickCount.value;
            var space := HorizontalTickSpace(a, availableSpace, fillToEdge, ext);
            var tickWidth := HorizontalTickWidth(a, availableSpace, ext);
            && 0 <= n < NUMERIC_TICKS
            && n * (tickWidth + TICK_MARGIN) <= space.Floor
  {
    var r := LayoutHorizontally(a, availableSpace, fillToEdge, ext);
    var space := HorizontalTickSpace(a, availableSpace, fillToEdge, ext);
    var tickWidth := HorizontalTickWidth(a, availableSpace, ext);
    var d := tickWidth + TICK_MARGIN;
    var n := QuotientToInt(space, d);
    assert r.tickCount == Some(n) && space < (tickWidth * NUMERIC_TICKS) as real;
    assert 0 <= tickWidth && 0.0 <= space <= INT_MAX as real;
    QuotientBounds(space, d);
    ReducedBelowTen(n, tickWidth, space);
  }

  /** n ticks of tickWidth + 5 that fit where ten ticks of tickWidth do not
      are fewer than ten. */
  lemma ReducedBelowTen(n: int, tickWidth: int, space: real)
    requires 0 <= tickWidth && 0 <= n
    requires n * (tickWidth + TICK_MARGIN) <= space.Floor
    requires space < (tickWidth * NUMERIC_TICKS) as real
    ensures n < NUMERIC_TICKS
  {
    var d := tickWidth + TICK_MARGIN;
    assert space.Floor < tickWidth * NUMERIC_TICKS;
    assert n * d < NUMERIC_TICKS * d;
    if n >= NUMERIC_TICKS {
      MulAtLeast(n, NUMERIC_TICKS, d);
      assert false;
    }
  }

  lemma MulAtLeast(n: int, m: int, d: int)
    requires n >= m && d >= 0
    ensures n * d >= m * d
  {
    assert n * d == m * d + (n - m) * d;
  }

  /** The same for the vertical layout: the reduced count of 16-pixel ticks
      fits in the space left between the gutters and is below ten; when that
      space is negative the requested count is not positive. */
  lemma VerticalReducedCountFits(a: AxisDetails, availableSpace: real, ext: Externals)
    requires Exists(a)
    requires availableSpace <= INT_MAX as real
    requires LayoutVertically(a, availableSpace, ext).tickCount != a.tickCount
    ensures var n := LayoutVertically(a, availableSpace, ext).tickCount.value;
            var space := availableSpace - (2 * VERTICAL_GUTTER) as real;
            && n < NUMERIC_TICKS
            && (space >= 0.0 ==> 0 <= n && n * VERTICAL_TICK_SPACING <= space.Floor)
            && (space < 0.0 ==> n <= 0)
  {
    var space := availableSpace - (2 * VERTICAL_GUTTER) as real;
    var n := QuotientToInt(space, VERTICAL_TICK_SPACING);
    assert (VERTICAL_TICK_SPACING * NUMERIC_TICKS) as real > space;
    if space >= 0.0 {
      QuotientBounds(space, VERTICAL_TICK_SPACING);
    } else {
      assert space / VERTICAL_TICK_SPACING as real < 0.0;
    }
  }

  /** Thinned-out tick values are an ordered selection of the categories
      that starts with the first one and drops at least one of any two or
      more. */
  lemma SkippedTicksAreThinned(a: AxisDetails, width: real, count: nat)
    requires MakeSkippingTickValues(a, width, count).Some?
    ensures var shown := MakeSkippingTickValues(a, width, count).value;
            var all := Flatten(a.fields);
            && (|all| > 0 ==> |shown| > 0 && shown[0] == all[0])
            && (|all| >= 2 ==> |shown| < |all|)
            && forall v :: v in shown ==> v in all
  {
    var k := SkipFrequency(width, count);
    var all := Flatten(a.fields);
    assert MakeSkippingTickValues(a, width, count).value == EveryNth(all, k);
    EveryNthSelects(all, k);
    if |all| >= 2 {
      EveryNthShrinks(all, k);
    }
  }

  /** There are as many thinned-out tick values as the ceiling of the
      number of categories divided by the skip frequency. */
  lemma SkippedTicksCount(a: AxisDetails, width: real, count: nat)
    requires MakeSkippingTickValues(a, width, count).Some?
    ensures var k := SkipFrequency(width, count);
            |MakeSkippingTickValues(a, width, count).value| == (|Flatten(a.fields)| + k - 1) / k
  {
    EveryNthLength(Flatten(a.fields), SkipFrequency(width, count));
  }

  /** When the horizontal layout rotates labels and thins them out, the
      labels shown are such a selection of the categories. */
  lemma RotatedTicksAreThinned(a: AxisDetails, availableSpace: real, fillToEdge: bool, ext: Externals)
    requires Exists(a) && Overflows(a, availableSpace, fillToEdge, ext)
    requires LayoutHorizontally(a, availableSpace, fillToEdge, ext).tickValues.Some?
    ensures var shown := LayoutHorizontally(a, availableSpace, fillToEdge, ext).tickValues.value;
            var all := Flatten(a.fields);
            && (|all| > 0 ==> |shown| > 0 && shown[0] == all[0])
            && (|all| >= 2 ==> |shown| < |all|)
            && forall v :: v in shown ==> v in all
  {
    SkippedTicksAreThinned(a, HorizontalTickSpace(a, availableSpace, fillToEdge, ext), CountTicks(a));
  }

  /** The i-th thinned-out tick value is the category at position i * k of
      the flattened list, k being the skip frequency. */
  lemma SkippedTickAt(a: AxisDetails, width: real, count: nat, i: nat)
    requires MakeSkippingTickValues(a, width, count).Some?
    requires i < |MakeSkippingTickValues(a, width, count).value|
    ensures var k := SkipFrequency(width, count);
            i * k < |Flatten(a.fields)|
            && MakeSkippingTickValues(a, width, count).value[i] == Flatten(a.fields)[i * k]
  {
    EveryNthAt(Flatten(a.fields), SkipFrequency(width, count), i);
  }

  /** Every category at a position that is a multiple of the skip frequency
      is among the thinned-out tick values, at its position divided by k. */
  lemma SkippedTicksKeepMultiples(a: AxisDetails, width: real, count: nat, j: nat)
    requires MakeSkippingTickValues(a, width, count).Some?
    requires j < |Flatten(a.fields)| && j % SkipFrequency(width, count) == 0
    ensures var shown := MakeSkippingTickValues(a, width, count).value;
            var k := SkipFrequency(width, count);
            0 <= j / k < |shown| && shown[j / k] == Flatten(a.fields)[j]
  {
    var k := SkipFrequency(width, count);
    assert MakeSkippingTickValues(a, width, count).value == EveryNth(Flatten(a.fields), k);
    EveryNthKeepsMultiples(Flatten(a.fields), k, j);
  }

  /** A categorical axis whose labels fit at full density keeps horizontal
      labels and shows every category. */
  lemma FullDensityWhenLabelsFit(dimension: string, fields: seq<Field>, userTitle: Option<string>,
                                 tickCount: int, availableSpace: real, fillToEdge: bool, ext: Externals)
    requires |fields| > 0
    requires var a := NewAxis(dimension, fields, true, userTitle, tickCount, ext);
             HorizontalTickSpace(a, availableSpace, fillToEdge, ext)
               >= (HorizontalTickWidth(a, availableSpace, ext) * CountTicks(a)) as real
    ensures var r := LayoutHorizontally(NewAxis(dimension, fields, true, userTitle, tickCount, ext), availableSpace, fillToEdge, ext);
            !r.rotatedTicks && r.tickValues.None? && r.leftGutter == r.rightGutter
  {
  }

  /** Example: one categorical field with 50 categories in 200
      pixels, centred rather than filled to the edge. Every label is at least 11 pixels wide, so the labels overflow,
      are rotated, and every fifth category is shown. */
  lemma FiftyCategoriesIn200Pixels(f: Field, userTitle: Option<string>, tickCount: int, ext: Externals)
    requires |f.categories| == 50
    ensures var r := LayoutHorizontally(NewAxis("x", [f], true, userTitle, tickCount, ext), 200.0, false, ext);
            && r.rotatedTicks
            && r.tickValues.Some?
            && |r.tickValues.value| == 10
            && forall i :: 0 <= i < 10 ==> r.tickValues.value[i] == f.categories[5 * i]
  {
    var a := NewAxis("x", [f], true, userTitle, tickCount, ext);
    FiftyCategoriesRotate(a, f, ext);
    EveryFifthOfFifty(f.categories);
  }

  /** The layout step of the example: the labels rotate and every fifth
      category is chosen. */
  lemma FiftyCategoriesRotate(a: AxisDetails, f: Field, ext: Externals)
    requires a.categorical && a.fields == [f] && |f.categories| == 50
    ensures var r := LayoutHorizontally(a, 200.0, false, ext);
            r.rotatedTicks && r.tickValues == Some(EveryNth(f.categories, 5))
  {
    FiftyCategoriesOverflow(a, f, ext);
    SkipOneInFive();
    assert MakeSkippingTickValues(a, 200.0, 50) == Some(EveryNth(f.categories, 5));
  }

  /** Every fifth of 50 elements: ten of them, at positions 0, 5, ..., 45. */
  lemma EveryFifthOfFifty<T>(c: seq<T>)
    requires |c| == 50
    ensures |EveryNth(c, 5)| == 10
    ensures forall i :: 0 <= i < 10 ==> EveryNth(c, 5)[i] == c[5 * i]
  {
    EveryNthLength(c, 5);
    forall i | 0 <= i < 10
      ensures EveryNth(c, 5)[i] == c[5 * i]
    {
      EveryNthAt(c, 5, i);
    }
  }

  /** One categorical field with 50 categories overflows 200 pixels. */
  lemma FiftyCategoriesOverflow(a: AxisDetails, f: Field, ext: Externals)
    requires a.categorical && a.fields == [f] && |f.categories| == 50
    ensures Flatten(a.fields) == f.categories
    ensures CountTicks(a) == 50
    ensures HorizontalTickSpace(a, 200.0, false, ext) == 200.0
    ensures Overflows(a, 200.0, false, ext)
  {
    assert Flatten(a.fields) == f.categories by {
      assert a.fields[..0] == [];
    }
    assert HorizontalTickWidth(a, 200.0, ext) >= 11 by {
      assert CharsToPixels(1) == 6;
    }
  }

  /** Twenty pixels per label with 50 labels in 200 pixels keeps one label
      in five. */
  lemma SkipOneInFive()
    ensures SkipFrequency(200.0, 50) == 5
  {
    assert PIXELS_PER_LABEL * 50 as real / 200.0 == 5.0;
    assert (5.0 + 0.5).Floor == 5;
  }

  /** Example: a negative width so small that 20 · count / width rounds
      below the int range. Math.round gives -20,000,000,000 as a long, and the
      narrowing cast keeps its low 32 bits, so the skip frequency is a large
      positive number and only the first category would be labelled. */
  lemma TinyNegativeWidthWraps()
    ensures SkipFrequency(-1.0 / 1000000000.0, 1) == 1474836480
  {
    var x := PIXELS_PER_LABEL / ((-1.0 / 1000000000.0) / 1 as real);
    assert x == -20000000000.0;
    assert (x + 0.5).Floor == -20000000000;
    assert RoundToLong(x) == -20000000000;
  }

  /** Example: a numeric field spanning 0 to 3,500,000 puts the
      axis in millions. */
  lemma MillionsExample(f: Field, dimension: string, userTitle: Option<string>, tickCount: int, ext: Externals)
    requires !f.isDate && f.extent == Some(Extent(0.0, 3500000.0))
    ensures NewAxis(dimension, [f], false, userTitle, tickCount, ext).inMillions
  {
    assert SpansMillions([f][0]);
  }
}

=== FILE: sequences.dfy ===
/** Sequence operations the axis code performs through Java collections:
    insertion-ordered de-duplication (a `LinkedHashSet` filled in order) and
    keeping every k-th element of a list. */
module Sequences {

  predicate Distinct<T(==)>(s: seq<T>)
  {
    forall i, j :: 0 <= i < j < |s| ==> s[i] != s[j]
  }

  /** Position of the first occurrence of x in s. */
  function IndexOf<T(==)>(s: seq<T>, x: T): (i: nat)
    requires x in s
    ensures i < |s| && s[i] == x
    ensures x !in s[..i]
  {
    if s[0] == x then 0 else 1 + IndexOf(s[1..], x)
  }

  lemma IndexOfPrefix<T>(s: seq<T>, n: nat, x: T)
    requires n <= |s| && x in s[..n]
    ensures IndexOf(s, x) == IndexOf(s[..n], x)
  {
    var i := IndexOf(s[..n], x);
    assert s[..i] == s[..n][..i];
  }

  /** The elements of s in the order they are first seen, each once: what a
      `LinkedHashSet` holds after the elements of s are added in turn. */
  function Dedup<T(==,!new)>(s: seq<T>): (r: seq<T>)
    ensures forall x :: x in r <==> x in s
    ensures Distinct(r)
    ensures forall i, j :: 0 <= i < j < |r| ==> IndexOf(s, r[i]) < IndexOf(s, r[j])
    ensures |r| <= |s|
  {
    if |s| == 0 then []
    else
      var p := Dedup(s[..|s| - 1]);
      var x := s[|s| - 1];
      DedupStep(s, p);
      if x in p then p
      else
        AppendKeepsOrder(s, p, x);
        AppendDistinct(p, x);
        p + [x]
  }

  /** What the last element of s adds to the ordered set p of the others:
      at most itself, first seen after everything already in p. */
  lemma DedupStep<T(!new)>(s: seq<T>, p: seq<T>)
    requires |s| > 0
    requires forall x :: x in p <==> x in s[..|s| - 1]
    requires forall i :: 0 <= i < |p| ==> p[i] in s[..|s| - 1]
    requires forall i, j :: 0 <= i < j < |p| ==> IndexOf(s[..|s| - 1], p[i]) < IndexOf(s[..|s| - 1], p[j])
    ensures forall z :: z in s <==> z in p || z == s[|s| - 1]
    ensures forall i, j :: 0 <= i < j < |p| ==> IndexOf(s, p[i]) < IndexOf(s, p[j])
    ensures forall i :: 0 <= i < |p| ==> IndexOf(s, p[i]) < |s| - 1
    ensures s[|s| - 1] !in p ==> IndexOf(s, s[|s| - 1]) == |s| - 1
  {
    LastMembers(s, p);
    PrefixPositions(s, p);
    OrderCarries(s, s[..|s| - 1], p);
    if s[|s| - 1] !in p {
      NewLastPosition(s);
    }
  }

  /** The members of s are those of its front and its last element. */
  lemma LastMembers<T>(s: seq<T>, p: seq<T>)
    requires |s| > 0
    requires forall x :: x in p <==> x in s[..|s| - 1]
    ensures forall z :: z in s <==> z in p || z == s[|s| - 1]
  {
    assert s == s[..|s| - 1] + [s[|s| - 1]];
  }

  /** First-seen order among the elements of p carries over from a front
      of s to s itself when each is first seen at the same place. */
  lemma OrderCarries<T>(s: seq<T>, front: seq<T>, p: seq<T>)
    requires forall i :: 0 <= i < |p| ==> p[i] in front && p[i] in s
    requires forall i, j :: 0 <= i < j < |p| ==> IndexOf(front, p[i]) < IndexOf(front, p[j])
    requires forall i :: 0 <= i < |p| ==> IndexOf(s, p[i]) == IndexOf(front, p[i])
    ensures forall i, j :: 0 <= i < j < |p| ==> IndexOf(s, p[i]) < IndexOf(s, p[j])
  {
  }

  lemma AppendDistinct<T>(p: seq<T>, x: T)
    requires Distinct(p) && x !in p
    ensures Distinct(p + [x])
  {
    var r := p + [x];
    forall i, j | 0 <= i < j < |r|
      ensures r[i] != r[j]
    {
      assert r[i] == p[i];
      if j < |p| {
        assert r[j] == p[j];
      } else {
        assert r[j] == x;
      }
    }
  }

  /** Elements of p, all seen before the last element of s, are first seen
      at the same place in s as in its front. */
  lemma PrefixPositions<T>(s: seq<T>, p: seq<T>)
    requires |s| > 0
    requires forall i :: 0 <= i < |p| ==> p[i] in s[..|s| - 1]
    ensures forall i :: 0 <= i < |p| ==> IndexOf(s, p[i]) == IndexOf(s[..|s| - 1], p[i]) < |s| - 1
  {
    forall i | 0 <= i < |p|
      ensures IndexOf(s, p[i]) == IndexOf(s[..|s| - 1], p[i]) < |s| - 1
    {
      IndexOfPrefix(s, |s| - 1, p[i]);
    }
  }

  /** A last element not seen before is first seen at the end. */
  lemma NewLastPosition<T>(s: seq<T>)
    requires |s| > 0 && s[|s| - 1] !in s[..|s| - 1]
    ensures IndexOf(s, s[|s| - 1]) == |s| - 1
  {
    var i := IndexOf(s, s[|s| - 1]);
    assert forall m :: i < m <= |s| ==> s[..m][i] == s[i];
  }

  /** Appending an element first seen after all of p keeps first-seen order. */
  lemma AppendKeepsOrder<T>(s: seq<T>, p: seq<T>, x: T)
    requires x in s && forall i :: 0 <= i < |p| ==> p[i] in s
    requires forall i, j :: 0 <= i < j < |p| ==> IndexOf(s, p[i]) < IndexOf(s, p[j])
    requires forall i :: 0 <= i < |p| ==> IndexOf(s, p[i]) < IndexOf(s, x)
    ensures forall i, j :: 0 <= i < j < |p + [x]| ==> IndexOf(s, (p + [x])[i]) < IndexOf(s, (p + [x])[j])
  {
    var r := p + [x];
    forall i, j | 0 <= i < j < |r|
      ensures IndexOf(s, r[i]) < IndexOf(s, r[j])
    {
      assert r[i] == p[i];
      if j < |p| {
        assert r[j] == p[j];
      } else {
        assert r[j] == x;
      }
    }
  }

  /** De-duplicating a list that is already distinct returns it unchanged. */
  lemma {:induction false} DedupOfDistinct<T(!new)>(s: seq<T>)
    requires Distinct(s)
    ensures Dedup(s) == s
  {
    if |s| > 0 {
      var front := s[..|s| - 1];
      assert Distinct(front);
      DedupOfDistinct(front);
      assert s[|s| - 1] !in front;
      assert front + [s[|s| - 1]] == s;
    }
  }

  /** Every k-th element of s, starting with the first: the elements whose
      0-based position is a multiple of k. The length is the ceiling of
      |s| / k, stated without division. */
  function EveryNth<T>(s: seq<T>, k: nat): (r: seq<T>)
    requires k >= 1
    ensures |r| == 0 <==> |s| == 0
    ensures |r| <= |s|
    decreases |s|
  {
    if |s| == 0 then []
    else if |s| <= k then [s[0]]
    else [s[0]] + EveryNth(s[k..], k)
  }

  /** The length of EveryNth(s, k) is the ceiling of |s| / k, stated without
      division: the last kept position is within s and one more stride would
      pass its end. */
  lemma {:induction false} EveryNthBounds<T>(s: seq<T>, k: nat)
    requires k >= 1
    ensures |s| > 0 ==> (|EveryNth(s, k)| - 1) * k < |s| <= |EveryNth(s, k)| * k
    decreases |s|
  {
    if |s| == 0 {
    } else if |s| <= k {
      assert |EveryNth(s, k)| == 1;
    } else {
      EveryNthBounds(s[k..], k);
      StrideBounds(|EveryNth(s[k..], k)|, |s|, k);
    }
  }

  /** Every kept element is the element at k times its index. */
  lemma EveryNthElements<T>(s: seq<T>, k: nat)
    requires k >= 1
    ensures forall i {:trigger EveryNth(s, k)[i]} :: 0 <= i < |EveryNth(s, k)| ==>
              i * k < |s| && EveryNth(s, k)[i] == s[i * k]
  {
    forall i | 0 <= i < |EveryNth(s, k)|
      ensures i * k < |s| && EveryNth(s, k)[i] == s[i * k]
    {
      EveryNthAt(s, k, i);
    }
  }

  /** The i-th element kept is the element at position i * k. */
  lemma {:induction false} EveryNthAt<T>(s: seq<T>, k: nat, i: nat)
    requires k >= 1 && i < |EveryNth(s, k)|
    ensures i * k < |s| && EveryNth(s, k)[i] == s[i * k]
    decreases |s|
  {
    if i == 0 {
      assert 0 * k == 0;
    } else {
      assert |s| > k;
      var rest := EveryNth(s[k..], k);
      assert EveryNth(s, k) == [s[0]] + rest;
      EveryNthAt(s[k..], k, i - 1);
      StrideIndex(i, k);
      assert s[k..][(i - 1) * k] == s[i * k];
    }
  }

  lemma StrideIndex(i: nat, k: nat)
    requires i >= 1
    ensures (i - 1) * k + k == i * k
  {
  }

  lemma StrideBounds(m: nat, n: nat, k: nat)
    requires k >= 1 && n > k && m >= 1
    requires (m - 1) * k < n - k <= m * k
    ensures ((m + 1) - 1) * k < n <= (m + 1) * k
  {
    assert (m - 1) * k + k == m * k;
    assert (m + 1) * k == m * k + k;
  }

  /** The length of EveryNth(s, k) is the ceiling of |s| / k. */
  lemma EveryNthLength<T>(s: seq<T>, k: nat)
    requires k >= 1
    ensures |EveryNth(s, k)| == (|s| + k - 1) / k
  {
    var m := |EveryNth(s, k)|;
    var n := |s|;
    EveryNthBounds(s, k);
    if n > 0 {
      assert (m - 1) * k + k == m * k;
      CeilingUnique(n, k, m);
    }
  }

  lemma CeilingUnique(n: nat, k: nat, m: nat)
    requires k >= 1 && m >= 1
    requires (m - 1) * k < n <= m * k
    ensures (n + k - 1) / k == m
  {
    var t := n + k - 1;
    assert (m - 1) * k + k == m * k;
    assert m * k <= t < m * k + k;
    var q := t / k;
    assert t == q * k + t % k;
    assert (q + 1) * k == q * k + k;
    assert (m + 1) * k == m * k + k;
    if q < m {
      MulLe(q + 1, m, k);
      assert false;
    } else if q > m {
      MulLe(m + 1, q, k);
      assert false;
    }
  }

  lemma MulLe(a: nat, b: nat, k: nat)
    requires a <= b
    ensures a * k <= b * k
  {
    assert b * k == a * k + (b - a) * k;
  }

  /** A position that is a multiple of k is kept, at index position / k. */
  lemma EveryNthKeepsMultiples<T>(s: seq<T>, k: nat, j: nat)
    requires k >= 1 && j < |s| && j % k == 0
    ensures j / k < |EveryNth(s, k)| && EveryNth(s, k)[j / k] == s[j]
  {
    EveryNthBounds(s, k);
    QuotientBelow(j, k, |s|, |EveryNth(s, k)|);
    EveryNthAt(s, k, j / k);
  }

  /** An exact multiple j of k below n <= m * k has a quotient below m. */
  lemma QuotientBelow(j: nat, k: nat, n: nat, m: nat)
    requires k >= 1 && j % k == 0 && j < n <= m * k
    ensures (j / k) * k == j && j / k < m
  {
    var q := j / k;
    assert q * k == j;
    if q >= m {
      MulLe(m, q, k);
      assert false;
    }
  }

  /** Keeping every k-th element with k >= 2 drops something from any list
      of two or more elements. */
  lemma EveryNthShrinks<T>(s: seq<T>, k: nat)
    requires k >= 2 && |s| >= 2
    ensures 1 <= |EveryNth(s, k)| < |s|
  {
    var m := |EveryNth(s, k)|;
    var n := |s|;
    EveryNthBounds(s, k);
    MulLeft(m - 1, 2, k);
  }

  lemma MulLeft(a: nat, k1: nat, k2: nat)
    requires k1 <= k2
    ensures a * k1 <= a * k2
  {
    assert a * k2 == a * k1 + a * (k2 - k1);
  }

  /** EveryNth selects from s: it starts with the first element and every
      element it keeps comes from s. */
  lemma EveryNthSelects<T>(s: seq<T>, k: nat)
    requires k >= 1
    ensures |s| > 0 ==> |EveryNth(s, k)| > 0 && EveryNth(s, k)[0] == s[0]
    ensures forall v :: v in EveryNth(s, k) ==> v in s
  {
    var r := EveryNth(s, k);
    EveryNthElements(s, k);
    if |s| > 0 {
      assert 0 * k == 0;
      assert r[0] == s[0 * k];
    }
    forall v | v in r
      ensures v in s
    {
      var i :| 0 <= i < |r| && r[i] == v;
      assert s[i * k] == v;
    }
  }

  /** The elements of s whose position is a multiple of k, collected front
      to back the way a counting loop does: the element at position j is
      kept when j % k == 0. */
  function KeepAtMultiples<T>(s: seq<T>, k: nat): seq<T>
    requires k >= 1
  {
    if |s| == 0 then []
    else KeepAtMultiples(s[..|s| - 1], k) + (if (|s| - 1) % k == 0 then [s[|s| - 1]] else [])
  }

  /** The counting loop and the stride definition keep the same elements. */
  lemma KeepAtMultiplesIsEveryNth<T>(s: seq<T>, k: nat)
    requires k >= 1
    ensures KeepAtMultiples(s, k) == EveryNth(s, k)
  {
    var a := KeepAtMultiples(s, k);
    var b := EveryNth(s, k);
    SameCount(s, k);
    forall i | 0 <= i < |a|
      ensures a[i] == b[i]
    {
      KeepAtMultiplesAt(s, k, i);
      EveryNthAt(s, k, i);
    }
  }

  lemma SameCount<T>(s: seq<T>, k: nat)
    requires k >= 1
    ensures |KeepAtMultiples(s, k)| == |EveryNth(s, k)|
  {
    var a := |KeepAtMultiples(s, k)|;
    var b := |EveryNth(s, k)|;
    if |s| == 0 {
      KeepAtMultiplesBounds(s, k);
    } else {
      assert a == b by {
        KeepAtMultiplesBounds(s, k);
        EveryNthBounds(s, k);
        CountUnique(a, b, |s|, k);
      }
    }
  }

  /** The loop keeps ceiling(|s| / k) elements, stated without division. */
  lemma {:induction false} KeepAtMultiplesBounds<T>(s: seq<T>, k: nat)
    requires k >= 1
    ensures |s| == 0 ==> |KeepAtMultiples(s, k)| == 0
    ensures |s| > 0 ==> (|KeepAtMultiples(s, k)| - 1) * k < |s| <= |KeepAtMultiples(s, k)| * k
  {
    var n := |s|;
    if n > 0 {
      var p := s[..n - 1];
      KeepAtMultiplesBounds(p, k);
      var m := |KeepAtMultiples(p, k)|;
      if n - 1 == 0 {
        assert |KeepAtMultiples(s, k)| == 1;
      } else if (n - 1) % k == 0 {
        assert |KeepAtMultiples(s, k)| == m + 1;
        MultipleIsBound(n - 1, k, m);
        StrideIndex(m + 1, k);
      } else {
        assert |KeepAtMultiples(s, k)| == m;
        if n - 1 == m * k {
          MultipleRemainder(n - 1, m, k);
        }
      }
    }
  }

  /** The i-th element the loop keeps is the element at position i * k. */
  lemma {:induction false} KeepAtMultiplesAt<T>(s: seq<T>, k: nat, i: nat)
    requires k >= 1 && i < |KeepAtMultiples(s, k)|
    ensures i * k < |s| && KeepAtMultiples(s, k)[i] == s[i * k]
  {
    var n := |s|;
    var p := s[..n - 1];
    var q := KeepAtMultiples(p, k);
    var m := |q|;
    if i < m {
      KeepAtMultiplesAt(p, k, i);
      assert KeepAtMultiples(s, k)[i] == q[i];
    } else {
      assert i == m && (n - 1) % k == 0;
      KeepAtMultiplesBounds(p, k);
      if n - 1 > 0 {
        MultipleIsBound(n - 1, k, m);
      } else {
        assert m == 0;
      }
    }
  }

  /** A positive multiple of k with (m - 1) * k < x <= m * k is m * k. */
  lemma MultipleIsBound(x: nat, k: nat, m: nat)
    requires k >= 1 && x % k == 0 && (m - 1) * k < x <= m * k
    ensures x == m * k
  {
    var q := x / k;
    assert x == q * k;
    if q < m {
      MulLe(q, m - 1, k);
      assert false;
    } else if q > m {
      MulLe(m + 1, q, k);
      StrideIndex(m + 1, k);
      assert false;
    }
  }

  lemma MultipleRemainder(x: nat, m: nat, k: nat)
    requires k >= 1 && x == m * k
    ensures x % k == 0
  {
    var q := x / k;
    var r := x % k;
    assert x == q * k + r && 0 <= r < k;
    if q < m {
      MulLe(q + 1, m, k);
      StrideIndex(q + 1, k);
      assert false;
    } else if q > m {
      MulLe(m + 1, q, k);
      StrideIndex(m + 1, k);
      assert false;
    }
  }

  /** Two counts that both satisfy the ceiling bounds for n are equal. */
  lemma CountUnique(a: nat, b: nat, n: nat, k: nat)
    requires k >= 1
    requires (a - 1) * k < n <= a * k
    requires (b - 1) * k < n <= b * k
    ensures a == b
  {
    if a < b {
      MulLe(a, b - 1, k);
    } else if b < a {
      MulLe(b, a - 1, k);
    }
  }
}
